=== FILE: README.md ===
# Face sign-in app: a Dafny model of its core logic

This project models the logic of an iOS care-management app and its small photo server. The app lets managers and clients sign in with a password or with their face. It registers users and lists clients. It records each client's status (completed, refused, partial, pending) and schedules task reminders. It uploads a profile photo to a server.

Once the camera, the machine-learning encoder, the document store, the notification centre and the UI are taken away, what remains is pure logic over sequences, strings and maps. That logic is modelled here:

- **Similarity scorers** (`FaceRecognition`). These are the mean-absolute-difference score, with its length guard, and cosine similarity, with its zero-magnitude guard. `Float` is `real`, and the square root is a parameter constrained by `IsSqrt`.
- **Sign-in** (`Login`, `SignIn`):
  - credential lookup over the fetched clients;
  - the face matcher, a linear argmax with a strict `>` from a start of 0, followed by a strict `> 0.8` test;
  - the UIKit screen's case-insensitive lookup over two built-in accounts, with routing by role.
- **User records** (`UserModel`, `Documents`, `FireBaseServer`, `FirestoreUtils`). These cover the `User` class, modelled as an immutable value, and its enumerations, the document written on registration, and the two readers that turn documents back into users.
- **Registration** (`Registration`): a hand-written recogniser for the email pattern, the Register button's guard, and the registration flow with its messages.
- **Client list** (`ClientList`, `ClientRow`, `PersonalDetail`):
  - sorting by a chosen key and filtering by search text;
  - status updates;
  - the status summary, the address line, the optional rows and the status toggles.
- **Tasks** (`Tasks`). The notification centre is a map from identifier to request. This module covers reminder scheduling and removal, and the task row mapping with its add, delete and toggle operations.
- **Photo upload** (`PhotoUpload`, `Utf8`): the multipart/form-data body and the download URL. The body follows section 4.2 of RFC 7578 for Content-Disposition, and section 5.1.1 of RFC 2046 for the dash-boundary and close-delimiter. A matching receiver is included, so the body can be read back.
- **Upload server** (`UploadServer`): the file name the multer `filename` callback stores. It is Node's `path.basename` and `path.extname`, with each run of JavaScript `\s` replaced by `_`.

`Wrappers`, `Seqs` and `Text` hold the shared helpers: `Option`, filtering, first index, ASCII case folding, lexicographic order, join and split.

## Model

| member | source | states |
|---|---|---|
| FaceRecognition.MeanAbsSimilarity | uusr/uusr/FaceRecognitionManager.swift:70-80 | Vectors of different lengths score exactly 0. Two empty vectors give the NaN of 0/0. Otherwise the score is 1 − Σ\|aᵢ−bᵢ\|/n, and it never exceeds 1. |
| FaceRecognition.CalculateSimilarity | uusr/uusr/FaceRecognitionManager.swift:70-80 | The accumulating loop computes the mean-absolute score defined above. |
| FaceRecognition.SumAbsDiffSymmetric | uusr/uusr/FaceRecognitionManager.swift:74-77 | The total absolute difference does not depend on argument order. |
| FaceRecognition.SumAbsDiffZero | uusr/uusr/FaceRecognitionManager.swift:74-77 | The total absolute difference is 0 exactly when the vectors are equal. |
| FaceRecognition.MeanAbsSymmetric | uusr/uusr/FaceRecognitionManager.swift:70-80 | The mean-absolute score is symmetric. |
| FaceRecognition.MeanAbsOneIffEqual | uusr/uusr/FaceRecognitionManager.swift:73-79 | For equal non-empty lengths the score is 1 exactly when the vectors are identical, so self-similarity is 1. |
| FaceRecognition.Cosine | uusr/uusr/FaceRecognitionManager.swift:83-94 | A zero vector on either side gives exactly 0. With both magnitudes non-zero, the result is the zipped dot product over the product of the whole-vector magnitudes. |
| FaceRecognition.SumSquaresZero | uusr/uusr/FaceRecognitionManager.swift:85-86 | A sum of squares is positive for a non-zero vector and 0 for the zero vector. |
| FaceRecognition.ZeroMagnitude | uusr/uusr/FaceRecognitionManager.swift:85-91 | A magnitude is zero exactly when every entry is zero, so the guard fires only for zero vectors. |
| FaceRecognition.DotZip | uusr/uusr/FaceRecognitionManager.swift:84 | The dot product only sees the first min(\|a\|,\|b\|) pairs. There is no length guard. |
| FaceRecognition.DotSymmetric | uusr/uusr/FaceRecognitionManager.swift:84 | The zipped dot product is symmetric. |
| FaceRecognition.DotSelf | uusr/uusr/FaceRecognitionManager.swift:84-85 | A vector's dot product with itself is its sum of squares. |
| FaceRecognition.CosineSymmetric | uusr/uusr/FaceRecognitionManager.swift:83-94 | Cosine similarity is symmetric. |
| FaceRecognition.CosineSelf | uusr/uusr/FaceRecognitionManager.swift:83-94 | Every non-zero vector has cosine similarity 1 with itself. |
| Login.AuthenticateUser | uusr/uusr/LoginView.swift:92-116 | A fetch error or a missing list fails and keeps the session. Otherwise sign-in succeeds iff some client has the same email and password, code point for code point. |
| Login.Step | uusr/uusr/LoginView.swift:143-153 | One loop iteration. An undecodable client changes nothing. A score strictly above the running best becomes the match. Anything else keeps the best. |
| Login.ScanPrefix | uusr/uusr/LoginView.swift:140-154 | After n clients, a match is a candidate among them with a positive score. No candidate exceeds it and no earlier candidate reaches it. |
| Login.Scan | uusr/uusr/LoginView.swift:140-154 | The scan picks the first candidate that attains the maximum, and only when that maximum is positive. |
| Login.ScanClients | uusr/uusr/LoginView.swift:140-154 | The loop with its running `bestMatch` and `highestSimilarity` reports the scan's id and highest score. |
| Login.ScanIsFirstMaximum | uusr/uusr/LoginView.swift:149-152 | Any positive candidate that no candidate exceeds and no earlier one reaches is exactly what the scan returns. Ties keep the earliest. |
| Login.UndecodableSkipped | uusr/uusr/LoginView.swift:145 | Appending a client whose encoding cannot be decoded leaves the scan unchanged. |
| Login.ScanPrefixAgrees | uusr/uusr/LoginView.swift:142 | The scan of the first n clients depends only on those clients. |
| Login.AuthenticateWithFace | uusr/uusr/LoginView.swift:119-169 | A fetch error, a missing list or an encoder failure fails the attempt and keeps the session. Otherwise the attempt either succeeds or fails with the session kept, and `Login.FaceLoginSucceedsIff` says which. |
| Login.FaceLoginSucceedsIff | uusr/uusr/LoginView.swift:158-165 | Face sign-in succeeds iff the fetch and the encoder worked and some decodable client scores strictly above 0.8. |
| Login.BestMatchID | uusr/uusr/LoginView.swift:150-151 | The reported id is present exactly when there is a match, and it is that client's id. |
| Login.StoredEncodingAsWritten | uusr/uusr/LoginView.swift:145 | Casting a status-dictionary entry to an array of points never succeeds. |
| Login.FaceLoginNeverSucceedsAsWritten | uusr/uusr/LoginView.swift:145-165 | With the decoder as written, face sign-in fails for every client list and every captured face. |
| Login.ClientWithStoredEncoding | uusr/uusr/server/FireBaseServer.swift:21-33 | The intended client reader agrees with the fetch mapping on every field but the encoding. It reads back exactly the points a stored `{x, y}` array was written from, and no encoding when the field is missing. |
| Login.RegisteredEncodingIsCandidate | uusr/uusr/server/FireBaseServer.swift:39-51 | Read through the intended reader, a registered encoding comes back unchanged as the client's own `faceEncoding`, which is where the face matcher should look. |
| SignIn.TestUsers | uusr/uusr/ViewController.swift:12-15 | There are two built-in accounts with the source's emails and passwords: a manager, then an individual. |
| SignIn.RouteFor | uusr/uusr/ViewController.swift:55-59 | A manager goes to the home page, and anyone else to their own detail page. |
| SignIn.AuthenticateUser | uusr/uusr/ViewController.swift:48-64 | With no match there is an alert and `isLoggedIn` is unchanged. Otherwise the first user matching the email case-insensitively and the password code point for code point signs in, and is routed by role. |
| SignIn.SignInTapped | uusr/uusr/ViewController.swift:37-46 | An empty or missing field gives the missing-fields alert and nothing else. Otherwise the credentials are checked. |
| SignIn.EmailCaseIgnored | uusr/uusr/ViewController.swift:50 | Case-folding the typed email never changes the outcome. |
| SignIn.ManagerTestAccountSignsIn | uusr/uusr/ViewController.swift:50-59 | The manager account typed in mixed case signs in and lands on the home page. |
| SignIn.WrongPasswordRejected | uusr/uusr/ViewController.swift:50-63 | A password differing only in case is rejected with an alert, and the session is unchanged. |
| UserModel.StatusFromRawValue | uusr/uusr/UserModel.swift:9-14 | Parsing a raw value is the exact inverse of `RawValue`. |
| UserModel.AllStatusesEnumerate | uusr/uusr/UserModel.swift:9-14 | There are four cases, each listed once, and their raw values are the four distinct names. |
| UserModel.IsStatusSet | uusr/uusr/PersonalDetailView.swift:80 | A status reads as ticked exactly when its key is present and true. An absent key reads as false. |
| UserModel.SetStatus | uusr/uusr/ClientListView.swift:202 | Exactly the key `status.rawValue` gets the new value. All other keys are kept. |
| UserModel.SetThenRead | uusr/uusr/PersonalDetailView.swift:80-82 | After a write, that status reads back as written and every other status reads as before. |
| UserModel.SetStatusIdempotent | uusr/uusr/ClientListView.swift:202 | Writing a status's own value back changes nothing, and a second write overrides the first. |
| UserModel.NewUser | uusr/uusr/UserModel.swift:29-49 | The initialiser stores every argument unchanged. |
| UserModel.NewUserDefaults | uusr/uusr/UserModel.swift:36-38 | The defaults are an empty status map, no image and no encoding. |
| Documents.AsBoolMap | uusr/uusr/server/FireBaseServer.swift:31 | The `[String: Bool]` cast succeeds exactly for a dictionary of booleans, and it keeps its keys and values. |
| Documents.BoolMapRoundTrip | uusr/uusr/server/FireBaseServer.swift:49 | A stored status map casts back to itself. |
| Documents.PointsValue | uusr/uusr/RegisrationView.swift:211 | The stored encoding is one `{x, y}` dictionary per point, in order. |
| Documents.PointsRoundTrip | uusr/uusr/RegisrationView.swift:211 | A stored encoding casts back to the same points in the same order. |
| FireBaseServer.RoleString | uusr/uusr/server/FireBaseServer.swift:48 | The written role is "manager" iff the role is manager, and "individual" otherwise. |
| FireBaseServer.AllFalseStatus | uusr/uusr/server/FireBaseServer.swift:49 | Reducing over cases gives their raw values as keys, all false. |
| FireBaseServer.AllCasesGiveInitialStatus | uusr/uusr/server/FireBaseServer.swift:49 | Reducing over all cases gives exactly the four raw values as keys, all false. |
| FireBaseServer.UserDocument | uusr/uusr/server/FireBaseServer.swift:39-51 | The document has exactly the ten fields. A missing unit or building is written as "". The role is written as the manager/individual string, the status as the all-false map, and the face encoding as given. |
| FireBaseServer.ClientFromDocument | uusr/uusr/server/FireBaseServer.swift:21-33 | A missing or non-string field reads as "", and the role is manager iff the stored string is "manager". A missing status reads as an empty map. Document ID and encoding are not read. |
| FireBaseServer.FetchClients | uusr/uusr/server/FireBaseServer.swift:9-36 | An error yields no list. A reply without documents yields an empty list. Otherwise there is one user per document, in document order. |
| FireBaseServer.RegisterThenFetch | uusr/uusr/server/FireBaseServer.swift:23-49 | Register-then-fetch keeps email, password, names and role. A missing unit or building comes back as "", and the status as the initial map. |
| FirestoreUtils.RoleFromStoredAsWritten | uusr/uusr/FirestoreUtils.swift:20 | The reader makes a manager only of the capitalised string "Manager". |
| FirestoreUtils.UserFromSnapshot | uusr/uusr/FirestoreUtils.swift:11-34 | No snapshot or a missing document gives no user. Otherwise the user carries the document ID, missing strings read as "", and a missing status reads as empty. |
| FirestoreUtils.ManagerReadsBackAsIndividual | uusr/uusr/FirestoreUtils.swift:20 | A registered manager reads back as an individual. |
| FirestoreUtils.RoleFromStored | uusr/uusr/server/FireBaseServer.swift:26 | The intended role reader makes a manager of exactly the string "manager", so it reads back whatever role the writer stored. |
| FirestoreUtils.RegisterThenFetchUserCorrected | uusr/uusr/FirestoreUtils.swift:11-34 | With the corrected role test, a registered record reads back with its role, credentials, names, document ID and initial status. |
| FirestoreUtils.StatusUpdateFor | uusr/uusr/FirestoreUtils.swift:36-54 | An empty document ID issues no update. Otherwise the update targets that document with the whole status map. |
| Registration.IsValidEmailCorrect | uusr/uusr/RegisrationView.swift:251 | The recogniser accepts exactly the strings L@D.T of the pattern: L non-empty over `[A-Za-z0-9._%+-]`, D non-empty over `[A-Za-z0-9.-]`, and T of 2 to 64 ASCII letters. |
| Registration.SplitIsUnique | uusr/uusr/RegisrationView.swift:251 | Any split matching the pattern is the one the recogniser finds. |
| Registration.AcceptedEmailShape | uusr/uusr/RegisrationView.swift:251 | An accepted email has exactly one `@` and no whitespace. |
| Registration.AcceptedEmailTopLevel | uusr/uusr/RegisrationView.swift:251 | In an accepted email, the text after the last `.` is 2 to 64 ASCII letters. |
| Registration.AcceptsTypicalAddress | uusr/uusr/RegisrationView.swift:251 | "user@gmail.com" is accepted. |
| Registration.RejectsShortTopLevel | uusr/uusr/RegisrationView.swift:251 | A one-letter top-level label is rejected. |
| Registration.EmailChanged | uusr/uusr/RegisrationView.swift:116-118 | Editing the email sets the invalid flag iff the new value fails the pattern. Nothing else changes. |
| Registration.EmptyEmailRegisters | uusr/uusr/RegisrationView.swift:146-149 | On a fresh form the guard as written lets through an empty email, which fails the pattern. |
| Registration.RegisterAllowedIff | uusr/uusr/RegisrationView.swift:146-149 | The intended guard admits exactly valid emails, and agrees with the flag once the email has been edited. |
| Registration.RegisterTapped | uusr/uusr/RegisrationView.swift:146-149 | With the intended guard, the Register button runs the registration flow iff the email matches the pattern. |
| Registration.NilIfEmpty | uusr/uusr/RegisrationView.swift:196-197 | An empty field becomes nil, and any other value is kept. |
| Registration.NewRegistrant | uusr/uusr/RegisrationView.swift:190-198 | The new user is an individual with the form's fields, the generated id, and empty unit and building as nil. |
| Registration.RegisterUser | uusr/uusr/RegisrationView.swift:168-232 | No image, an encoder failure, a failed duplicate query and a duplicate face each only set their own message. A record is written iff there is an image, an encoding and no duplicate. A failed write sets its message and uploads nothing. The app dismisses iff the write succeeded. It uploads the face, to faces/<id>.jpg with the JPEG bytes, iff the write succeeded and the image has a JPEG encoding. |
| Registration.SaveFace | uusr/uusr/RegisrationView.swift:234-238 | An upload happens iff the image has a JPEG encoding. It carries exactly those bytes, to the path "faces/" + id + ".jpg". |
| Registration.RegisteredRecord | uusr/uusr/RegisrationView.swift:201-212 | The written record has role "individual" and unit and building as typed, with "" for empty. Its status has the four keys, all false, and its encoding is stored point by point in order. |
| ClientList.SortKey | uusr/uusr/ClientListView.swift:99-106 | The key is the first name, the last name, or the unit number with nil as "". |
| ClientList.SortClients | uusr/uusr/ClientListView.swift:97-108 | The sorted list is a permutation of the input. It is non-decreasing by the selected key under case-insensitive comparison. |
| ClientList.Insert | uusr/uusr/ClientListView.swift:98-107 | Inserting into a sorted list keeps it sorted and adds exactly one element. |
| ClientList.FilteredClients | uusr/uusr/ClientListView.swift:111-120 | The result is an order-preserving subsequence. A client is kept iff one of its names, its unit or its building contains the text case-insensitively; a nil unit or building never matches. Every occurrence of a matching client is kept, with the same count, and an empty text keeps everyone. |
| Seqs.FilterCount | uusr/uusr/ClientListView.swift:112 | `filter` keeps every occurrence of a kept element and none of a dropped one. |
| ClientList.EmptySearchKeepsAll | uusr/uusr/ClientListView.swift:113 | An empty search text returns the clients unchanged. |
| ClientList.UpdateStatusUndo | uusr/uusr/ClientListView.swift:201-203 | Setting a recorded status back to its old value after a tick restores the client, and the saved and pushed maps with it. |
| ClientList.ClientsAfterFetch | uusr/uusr/ClientListView.swift:84-94 | A fetch error keeps the current list. Otherwise the list is the fetched clients, or none, sorted. |
| ClientList.UpdateStatus | uusr/uusr/ClientListView.swift:201-215 | Exactly the key `status.rawValue` gets the chosen value, and every other key and value is kept. The whole map is saved locally under "status_" plus the current document ID ("N/A" when unknown), and pushed to that ID ("" when unknown). |
| ClientRow.AddressLine | uusr/uusr/ClientRowView.swift:31-32 | The address line is shown iff both unit and building are present, as "Address: unit, building". |
| ClientRow.ActiveKeys | uusr/uusr/ClientRowView.swift:54 | The summary's keys are exactly the keys whose value is true, each once. |
| ClientRow.StatusText | uusr/uusr/ClientRowView.swift:53-56 | With no true value the summary is "None". |
| ClientRow.StatusTextComponents | uusr/uusr/ClientRowView.swift:54-55 | When some key is true and no key contains ", ", the summary splits into exactly the true keys: one component each, none for a false key. |
| ClientRow.StatusTextNoneIff | uusr/uusr/ClientRowView.swift:54-55 | For a map keyed by status raw values, the summary is "None" iff no value is true. |
| PersonalDetail.RoleLabel | uusr/uusr/PersonalDetailView.swift:41 | The label is "Manager" iff the role is manager, and "Individual" otherwise. Lower-cased, it is the role string the writer stores. |
| PersonalDetail.UnitNumberRow | uusr/uusr/PersonalDetailView.swift:48 | The unit row is shown iff the unit is present and non-empty. |
| PersonalDetail.BuildingNameRow | uusr/uusr/PersonalDetailView.swift:60 | The building row is shown iff the building is present and non-empty. |
| PersonalDetail.Toggles | uusr/uusr/PersonalDetailView.swift:77-86 | There is one toggle per status, in declaration order. Each reads the map with absent as off and is titled with the capitalised raw value. |
| PersonalDetail.ToggleLabels | uusr/uusr/PersonalDetailView.swift:86 | The titles read Completed, Refused, Partial, Pending. |
| PersonalDetail.SetToggle | uusr/uusr/PersonalDetailView.swift:81-83 | The setter writes only that status's key. It pushes the whole map unless the document ID is empty (lines 104-124). |
| PersonalDetail.ToggleTwiceRestores | uusr/uusr/PersonalDetailView.swift:79-84 | Flipping a toggle and flipping it back restores every toggle. |
| Tasks.Weekday | uusr/uusr/TaskView.swift:175 | A day has a weekday iff it is one of the seven abbreviations. The weekday is its position plus 1, in 1..7. |
| Tasks.ScheduleNotification | uusr/uusr/TaskView.swift:161-183 | With no repeat days, exactly one non-repeating request is added under the task name. Otherwise each day adds a weekly request under name_day. An unknown day traps. |
| Tasks.AddDayRequests | uusr/uusr/TaskView.swift:174-181 | The per-day loop succeeds iff every day is known. It then adds exactly the per-day identifiers, each with its day's request, and leaves other requests alone. |
| Tasks.ScheduledReminders | uusr/uusr/TaskView.swift:161-183 | Afterwards the pending identifiers are the old ones plus the scheduled ones. Every other request is unchanged. Each day has a repeating request for the task, at the chosen time, on that day's weekday. |
| Tasks.DayIdentifier | uusr/uusr/TaskView.swift:179 | A per-day identifier never equals the task name. |
| Tasks.DayIdentifiersInjective | uusr/uusr/TaskView.swift:179 | Different days give different identifiers. |
| Tasks.RemoveNotification | uusr/uusr/TaskView.swift:185-188 | Removal withdraws exactly the identifier equal to the task name. |
| Tasks.WeeklyRemindersSurviveRemoval | uusr/uusr/TaskView.swift:187 | After removing a weekly task, every per-day reminder is still pending. |
| Tasks.RemoveTaskNotifications | uusr/uusr/TaskView.swift:179 | The intended removal withdraws exactly the identifiers the task was scheduled under. |
| Tasks.ScheduleThenRemoveRestores | uusr/uusr/TaskView.swift:161-188 | Scheduling and then the intended removal leaves no reminder for the task, and every other request as it was. |
| Tasks.TaskDocument | uusr/uusr/TaskView.swift:196-203 | The saved document has the six fields, starts active, and belongs to the user's document ID. |
| Tasks.TaskFromDocument | uusr/uusr/TaskView.swift:221-230 | Missing strings read as "", missing days as none, and a missing date as now. Disabled is the negation of `isActive`, which defaults to true. The row keeps the document ID. |
| Tasks.SaveThenFetchTask | uusr/uusr/TaskView.swift:196-230 | A saved task reads back as an enabled row with the same fields. |
| Tasks.FetchTasks | uusr/uusr/TaskView.swift:214-234 | An error keeps the rows. No snapshot gives none. Otherwise there is one row per document, in order. |
| Tasks.ToggleTask | uusr/uusr/TaskView.swift:47 | The toggle flips only that row's disabled flag. |
| Tasks.ToggleTwice | uusr/uusr/TaskView.swift:47 | Toggling twice restores the list. |
| Tasks.DeleteTask | uusr/uusr/TaskView.swift:56-61 | Delete removes exactly the row at the index, with the others kept in order. It deletes that row's document and withdraws the reminder named after its description. |
| Tasks.DeleteKeepsOthers | uusr/uusr/TaskView.swift:61 | The remaining rows are the list without that entry, as a multiset too. |
| Tasks.AddTask | uusr/uusr/TaskView.swift:96-100 | Nothing happens for an empty task. Otherwise the task is scheduled, and saved iff the user has a document ID. |
| Utf8.EncodeAppend | uusr/uusr/ProfilePhoto/PhotoHandler.swift:18-22 | UTF-8 encoding distributes over concatenation. |
| PhotoUpload.MultipartBody | uusr/uusr/ProfilePhoto/PhotoHandler.swift:14-22 | The body is the opening with field "photo" and file name userID.jpg, then the header tail, the image bytes and the close delimiter. |
| PhotoUpload.BuildUpload | uusr/uusr/ProfilePhoto/PhotoHandler.swift:3-24 | A failed JPEG encoding or an empty user ID builds no request. Otherwise the request is a PUT to the upload URL, with the boundary's content type and that body. |
| PhotoUpload.UploadRoundTrip | uusr/uusr/ProfilePhoto/PhotoHandler.swift:11-22 | The receiver reads the boundary back from the Content-Type, and with it the file name userID.jpg and the image bytes unchanged. |
| PhotoUpload.BoundaryRoundTrip | uusr/uusr/ProfilePhoto/PhotoHandler.swift:11-12 | The header carries exactly the boundary used in the body. |
| PhotoUpload.ParseShape | uusr/uusr/ProfilePhoto/PhotoHandler.swift:18-22 | Any name without a carriage return, and any bytes, parse back from the five pieces. |
| PhotoUpload.DownloadURL | uusr/uusr/ProfilePhoto/PhotoHandler.swift:38-39 | The URL is the download base followed by filename.jpg. |
| PhotoUpload.UploadedPhotoIsDownloadable | uusr/uusr/ProfilePhoto/PhotoHandler.swift:19 | For an ID without whitespace or slashes, the download URL names the stored file. |
| UploadServer.Basename | backend/index.js:15 | When the extension is a non-empty proper suffix of the last segment, the result followed by the extension is the segment. Otherwise the result is the whole segment. |
| UploadServer.Segment | backend/index.js:14-15 | The last path segment has no slash, and a slash-free name is its own segment. |
| UploadServer.ExtName | backend/index.js:14 | The extension is a proper suffix from the segment's last `.`, or "" when that dot leads the segment. |
| UploadServer.CollapseSpaces | backend/index.js:15 | The result has no whitespace, is no longer than its input, and is non-empty for non-empty input. |
| UploadServer.CollapseKeepsText | backend/index.js:15 | Every character other than `_` and whitespace is kept. |
| UploadServer.CollapseRun | backend/index.js:15 | A maximal whitespace run becomes one `_`. |
| UploadServer.StoredFilename | backend/index.js:13-17 | The stored name is the collapsed stem followed by the original extension. |
| UploadServer.StoredStemHasNoSpaces | backend/index.js:15 | The stored stem contains no whitespace. |
| UploadServer.ExtensionPreserved | backend/index.js:14-16 | The stored name keeps the original's extension. |
| UploadServer.StoredExtension | backend/index.js:14-16 | The stored name's own extension is the original's. |
| UploadServer.DirectoryDropped | backend/index.js:15 | Directory components of the original name are dropped. |
| UploadServer.StoredFilenameKeepsPlainNames | backend/index.js:15-16 | A name with no whitespace and no directory is stored as is. |
| UploadServer.StoredFilenameIdempotent | backend/index.js:15-16 | Sanitising twice gives the same as sanitising once. |
| UploadServer.UploadResponse | backend/index.js:22-27 | A request without a file gives 400 with the error message. Otherwise 200 with the stored file name. |

## Left out

- The CoreML/Vision embedding (`getEmbedding`), model loading and `encodeFace` are left out because they are foreign ML code and concurrency. The encoder's output enters as a parameter (`captured`, `encoded`).
- `calculateSimilarity(points1:points2:)` is called by the face matcher but not defined in the app's sources. It is the `sim` parameter of `Login.Scan`, and the decoding of stored encodings is the `decode` parameter.
- Firestore, Storage, URLSession and notification-centre traffic, completion handlers and `DispatchQueue` hops are left out. Only the documents written, the documents read, the requests built and the guards are modelled. Query results and write outcomes are parameters.
- The duplicate-face `arrayContainsAny` query is left out because its semantics are the server's. Its answer is the `Registration.DuplicateCheck` parameter.
- The Express, multer and fs runtime and the `/download/:filename` route are left out because they are I/O. Only the stored-name callback and the upload route's answer are modelled.
- The camera, AppDelegate, YouTube, HomePage and SwiftUI layout code are left out because they are UI with no logic to model. So is the duplicate row view in ClientListView.swift, apart from its `updateStatus`.
- UUIDs, the multipart boundary, the current date and the hour and minute of the reminder time are parameters, because they come from the system.
- `Float` is `real`, so rounding is not modelled. NaN is kept only for the 0/0 of two empty vectors in `FaceRecognition.MeanAbsSimilarity`.
- FaceRecognition.Cosine: |cos| ≤ 1 (Cauchy–Schwarz) is not proved. Only the zero guard, symmetry and self-similarity are proved.
- ClientList.AscendingCI and ClientList.ContainsCI use ASCII case folding. `localizedCaseInsensitiveCompare`/`Contains` are locale-aware, and that is not modelled. SignIn.Matches uses the same ASCII folding for `lowercased()`, and PersonalDetail.Capitalized uses it for `capitalized`.
- ClientList.SortClients: the order among clients with equal keys is the insertion sort's. Swift's `sort` is not stable, and its order of equal keys is not modelled.
- ClientRow.StatusText: the order of the summary's components is the dictionary's iteration order, which Swift leaves unspecified. It is the `keys` parameter.
- ClientRow.StatusTextNoneIff: the "None iff nothing is ticked" direction is proved only for maps keyed by status raw values. A map whose only true key is the literal "None" would break it.
- PhotoUpload.UploadRoundTrip requires a user ID without a carriage return. The receiver here finds the end of the file name at the first carriage return, whereas a real multipart parser would handle quoting.
- UploadServer.Basename models Node's `path.basename(p, ext)` for the extension it is given. The corner cases of other suffixes are not modelled.
- UploadServer.CollapseSpaces: the whitespace set is the ASCII and common Unicode characters of JavaScript `\s`, as characters. Surrogate pairs are not modelled.
- Login.AuthenticateUser: emails and passwords are compared code point by code point (`Login.CredentialsMatch`). Swift's `String ==` (LoginView.swift:107) also equates canonically equivalent strings, such as "caf\u{E9}" and "cafe\u{301}". Unicode normalisation is not modelled.
- SignIn.AuthenticateUser: the password `==` and the lowercased-email `==` (ViewController.swift:50, `SignIn.Matches`) are code-point equality on top of the ASCII folding above. Swift's canonical equivalence is not modelled.
- UserModel.User is a value, but the app's `User` is a class (`ObservableObject`, UserModel.swift:16). Its status map is changed in place (ClientListView.swift:202, PersonalDetailView.swift:82), and the list and the detail view share one object. The model's updates return a new user instead, so reference identity and sharing between views are not modelled.
- UserModel.User has a `firestoreDocumentID` field. The app uses one, but UserModel.swift does not declare it.
- Unequal lengths in `FaceRecognition.MeanAbsSimilarity` score 0 rather than raising an error (FaceRecognitionManager.swift:71), and the face-match test is a strict `> 0.8` (LoginView.swift:158). The model keeps both as the app has them.

## Findings

| source | as written | input that shows it | evidently intended | confidence | as-written member | corrected member |
|---|---|---|---|---|---|---|
| uusr/uusr/LoginView.swift:145 | The stored encoding is read as `statusDictionary["faceEncoding"] as? [[String: CGFloat]]`. Every value of that dictionary is a `Bool` (UserModel.swift:25), so the cast always fails. | Any fetched clients and any captured face: no client is a candidate, so sign-in fails. | Read the client's own stored face encoding. | not executed | Login.FaceLoginNeverSucceedsAsWritten | Login.RegisteredEncodingIsCandidate |
| uusr/uusr/TaskView.swift:187 | `removeNotification` withdraws only the identifier equal to the task name. Weekly reminders are added under name_day (line 179). | Latent in the view as shipped. `repeatDays` starts as `[]` (line 12), nothing assigns to it, and Add Task passes it unchanged (line 99), so only the one-shot path runs today. Once the list is filled, a task "Pills" with repeat day "Mon" leaves "Pills_Mon" pending after deletion. | Withdraw every identifier the task was scheduled under. | not executed | Tasks.WeeklyRemindersSurviveRemoval | Tasks.ScheduleThenRemoveRestores |
| uusr/uusr/FirestoreUtils.swift:20 | The role is manager only for "Manager". The writers store "manager" (FireBaseServer.swift:48, RegisrationView.swift:209). | A registered manager fetched by document ID reads back as an individual. | Compare with "manager", as `fetchClients` does. | not executed | FirestoreUtils.ManagerReadsBackAsIndividual | FirestoreUtils.RegisterThenFetchUserCorrected |
| uusr/uusr/RegisrationView.swift:146-149 | The Register guard checks `isEmailInvalid`, which starts false (line 23) and is only updated when the email is edited (lines 116-118). | A fresh form with an empty email passes the guard. | Register only when the email matches the pattern. | not executed | Registration.EmptyEmailRegisters | Registration.RegisterAllowedIff |

=== FILE: client_list.dfy ===
/** The manager's client list: sorting by a chosen key, filtering by the
    search text, and ticking a client's status. */
module ClientList {
  import opened Wrappers
  import opened UserModel
  import opened Text
  import opened Seqs
  import FireBaseServer
  import FirestoreUtils

  datatype SortOption = FirstName | LastName | UnitNumber

  /** The text a client is sorted by; a missing unit number sorts as "". */
  function SortKey(option: SortOption, u: User): (k: string)
    ensures option == FirstName ==> k == u.firstName
    ensures option == LastName ==> k == u.lastName
    ensures option == UnitNumber ==> k == u.unitNumber.GetOr("")
  {
    match option
    case FirstName => u.firstName
    case LastName => u.lastName
    case UnitNumber => u.unitNumber.GetOr("")
  }

  /** Case-insensitive "orderedAscending". */
  predicate AscendingCI(a: string, b: string)
  {
    LexLess(Lower(a), Lower(b))
  }

  /** The sort comparator: `a` goes before `b`. */
  predicate Before(option: SortOption, a: User, b: User)
  {
    AscendingCI(SortKey(option, a), SortKey(option, b))
  }

  /** No client is ordered before a client in front of it. */
  predicate Sorted(option: SortOption, s: seq<User>)
  {
    forall i, j :: 0 <= i < j < |s| ==> !Before(option, s[j], s[i])
  }

  /** Inserts `x` in front of the first client it goes before. */
  function Insert(option: SortOption, x: User, s: seq<User>): (r: seq<User>)
    requires Sorted(option, s)
    ensures multiset(r) == multiset(s) + multiset{x}
    ensures Sorted(option, r)
  {
    if s == [] then [x]
    else if Before(option, x, s[0]) then
      PrependSorted(option, x, s);
      [x] + s
    else
      var rest := Insert(option, x, s[1..]);
      ConsSorted(option, s[0], rest, x, s[1..]);
      assert s == [s[0]] + s[1..];
      assert multiset([s[0]] + rest) == multiset([s[0]]) + multiset(rest);
      [s[0]] + rest
  }

  /** A client that goes before the head of a sorted list can lead it. */
  lemma PrependSorted(option: SortOption, x: User, s: seq<User>)
    requires Sorted(option, s) && |s| > 0 && Before(option, x, s[0])
    ensures Sorted(option, [x] + s)
  {
    LexLessIrreflexive(Lower(SortKey(option, s[0])));
    forall k | 0 <= k < |s|
      ensures !Before(option, s[k], x)
    {
      if Before(option, s[k], x) {
        LexLessTransitive(Lower(SortKey(option, s[k])), Lower(SortKey(option, x)),
                          Lower(SortKey(option, s[0])));
      }
    }
    var r := [x] + s;
    assert forall j :: 0 < j < |r| ==> r[j] == s[j - 1];
  }

  /** A client that nothing in `t + [x]` goes before can lead any sorted
      arrangement of those clients. */
  lemma ConsSorted(option: SortOption, y: User, rest: seq<User>, x: User, t: seq<User>)
    requires Sorted(option, rest) && multiset(rest) == multiset(t) + multiset{x}
    requires !Before(option, x, y)
    requires forall k :: 0 <= k < |t| ==> !Before(option, t[k], y)
    ensures Sorted(option, [y] + rest)
  {
    forall k | 0 <= k < |rest|
      ensures !Before(option, rest[k], y)
    {
      assert rest[k] in multiset(rest);
      if rest[k] != x {
        assert rest[k] in multiset(t);
        var m :| 0 <= m < |t| && t[m] == rest[k];
      }
    }
    var r := [y] + rest;
    assert forall j :: 0 < j < |r| ==> r[j] == rest[j - 1];
  }

  /** `sortClients()`: the clients reordered by the selected key. */
  function SortClients(option: SortOption, clients: seq<User>): (r: seq<User>)
    ensures multiset(r) == multiset(clients)
    ensures Sorted(option, r)
  {
    if clients == [] then []
    else
      assert clients == [clients[0]] + clients[1..];
      Insert(option, clients[0], SortClients(option, clients[1..]))
  }

  /** Case-insensitive substring test. */
  predicate ContainsCI(s: string, q: string)
  {
    Contains(Lower(s), Lower(q))
  }

  /** A client is shown for the search text: the text is empty, or one of
      the names, the unit number or the building name contains it. A
      missing unit or building never matches. */
  predicate MatchesSearch(u: User, searchText: string)
  {
    searchText == ""
    || ContainsCI(u.firstName, searchText)
    || ContainsCI(u.lastName, searchText)
    || (u.unitNumber.Some? && ContainsCI(u.unitNumber.value, searchText))
    || (u.buildingName.Some? && ContainsCI(u.buildingName.value, searchText))
  }

  /** `filteredAndSortedClients`: the clients matching the search text,
      in list order. */
  function FilteredClients(clients: seq<User>, searchText: string): (r: seq<User>)
    ensures IsSubsequence(r, clients)
    ensures forall u :: u in r <==> u in clients && MatchesSearch(u, searchText)
    ensures forall u :: multiset(r)[u] == if MatchesSearch(u, searchText) then multiset(clients)[u] else 0
    ensures searchText == "" ==> r == clients
  {
    FilterIsSubsequence(clients, u => MatchesSearch(u, searchText));
    forall u
      ensures multiset(Filter(clients, u => MatchesSearch(u, searchText)))[u]
           == if MatchesSearch(u, searchText) then multiset(clients)[u] else 0
    {
      FilterCount(clients, u => MatchesSearch(u, searchText), u);
    }
    EmptySearchKeepsAll(clients, searchText);
    Filter(clients, u => MatchesSearch(u, searchText))
  }

  /** With an empty search text the filter keeps every client. */
  lemma {:induction false} EmptySearchKeepsAll(s: seq<User>, searchText: string)
    ensures searchText == "" ==> Filter(s, u => MatchesSearch(u, searchText)) == s
  {
    if s != [] {
      EmptySearchKeepsAll(s[1..], searchText);
    }
  }

  /** The list shown after a fetch: an error keeps the current list,
      otherwise the fetched clients (none when nil) sorted. */
  function ClientsAfterFetch(current: seq<User>, fetched: FireBaseServer.FetchOutcome,
                             option: SortOption): (r: seq<User>)
    ensures fetched.error.Some? ==> r == current
    ensures fetched.error.None? ==> multiset(r) == multiset(fetched.clients.GetOr([]))
    ensures fetched.error.None? ==> Sorted(option, r)
  {
    if fetched.error.Some? then current
    else SortClients(option, fetched.clients.GetOr([]))
  }

  /** What a status tick does: the updated client, the map saved locally
      under `savedKey`, and the update pushed to the document store. */
  datatype StatusChange = StatusChange(user: User, savedKey: string, saved: map<string, bool>,
                                       update: FirestoreUtils.StatusUpdate)

  /** `updateStatus(isSelected:status:for:)`: ticks or unticks one status,
      saves the whole map locally under "status_" and the current document
      ID ("N/A" when none is known), and pushes it to the current document
      ID ("" when none is known). */
  function UpdateStatus(user: User, isSelected: bool, status: Status,
                        currentDocumentID: Option<string>): (r: StatusChange)
    ensures r.user == user.(statusDictionary := r.user.statusDictionary)
    ensures r.user.statusDictionary.Keys == user.statusDictionary.Keys + {status.RawValue()}
    ensures r.user.statusDictionary[status.RawValue()] == isSelected
    ensures forall k :: k in user.statusDictionary && k != status.RawValue() ==>
      r.user.statusDictionary[k] == user.statusDictionary[k]
    ensures IsStatusSet(r.user.statusDictionary, status) == isSelected
    ensures forall other: Status :: other != status ==>
      IsStatusSet(r.user.statusDictionary, other) == IsStatusSet(user.statusDictionary, other)
    ensures r.savedKey == "status_" + currentDocumentID.GetOr("N/A")
    ensures r.saved == r.user.statusDictionary
    ensures r.update.documentID == currentDocumentID.GetOr("")
    ensures r.update.status == r.user.statusDictionary
  {
    var m := SetStatus(user.statusDictionary, status, isSelected);
    forall other: Status | other != status
      ensures IsStatusSet(m, other) == IsStatusSet(user.statusDictionary, other)
    {
      SetThenRead(user.statusDictionary, status, isSelected, other);
    }
    var updated := user.(statusDictionary := m);
    StatusChange(updated, "status_" + currentDocumentID.GetOr("N/A"), m,
                 FirestoreUtils.StatusUpdate(currentDocumentID.GetOr(""), m))
  }

  /** Ticking a recorded status and then setting it back to what it was
      restores the client, and the saved and pushed maps with it. */
  lemma UpdateStatusUndo(user: User, isSelected: bool, status: Status, currentDocumentID: Option<string>)
    requires status.RawValue() in user.statusDictionary
    ensures var once := UpdateStatus(user, isSelected, status, currentDocumentID);
      var back := UpdateStatus(once.user, user.statusDictionary[status.RawValue()], status, currentDocumentID);
      back.user == user && back.saved == user.statusDictionary && back.update.status == user.statusDictionary
  {
    var once := UpdateStatus(user, isSelected, status, currentDocumentID);
    var back := UpdateStatus(once.user, user.statusDictionary[status.RawValue()], status, currentDocumentID);
    assert back.user.statusDictionary == user.statusDictionary;
  }
}

=== FILE: client_row.dfy ===
/** One row of the client list: the address line and the status summary. */
module ClientRow {
  import opened Wrappers
  import opened UserModel
  import opened Text
  import opened Seqs

  /** The address line, shown only when both parts are present. */
  function AddressLine(u: User): (r: Option<string>)
    ensures r.Some? <==> u.unitNumber.Some? && u.buildingName.Some?
    ensures r.Some? ==> r.value == "Address: " + u.unitNumber.value + ", " + u.buildingName.value
  {
    match (u.unitNumber, u.buildingName)
    case (Some(unit), Some(building)) => Some("Address: " + unit + ", " + building)
    case _ => None
  }

  /** `keys` lists the dictionary's keys, each once, in its iteration order. */
  predicate IsKeyOrder(m: map<string, bool>, keys: seq<string>)
  {
    Distinct(keys) && (forall k :: k in keys ==> k in m) && (forall k :: k in m ==> k in keys)
  }

  /** The ticked keys, in iteration order. */
  function ActiveKeys(m: map<string, bool>, keys: seq<string>): (r: seq<string>)
    requires IsKeyOrder(m, keys)
    ensures forall k :: k in r <==> k in m && m[k]
    ensures Distinct(r)
    ensures |r| == |set k | k in m && m[k]|
  {
    var r := Filter(keys, k => k in m && m[k]);
    FilterDistinct(keys, k => k in m && m[k]);
    DistinctCardinality(r);
    assert (set k | k in r) == (set k | k in m && m[k]);
    r
  }

  /** `getStatusText()`: "None" when nothing is ticked, otherwise the
      ticked keys joined by ", ". */
  function StatusText(m: map<string, bool>, keys: seq<string>): (r: string)
    requires IsKeyOrder(m, keys)
    ensures (forall k :: k in m ==> !m[k]) ==> r == "None"
  {
    var active := ActiveKeys(m, keys);
    if active == [] then "None" else Join(active, ListSeparator)
  }

  /** The summary splits back into exactly the ticked keys, one component
      per ticked key and none for an unticked one, when some key is ticked
      and no key contains ", ". */
  lemma StatusTextComponents(m: map<string, bool>, keys: seq<string>)
    requires IsKeyOrder(m, keys)
    requires exists k :: k in m && m[k]
    requires forall k :: k in m ==> !Contains(k, ListSeparator)
    ensures var parts := Split(StatusText(m, keys), ListSeparator);
      (forall k :: k in parts <==> k in m && m[k])
      && |parts| == |set k | k in m && m[k]|
  {
    var active := ActiveKeys(m, keys);
    var k0 :| k0 in m && m[k0];
    assert k0 in active;
    SplitJoin(active);
  }

  /** The summary reads "None" exactly when nothing is ticked, for a
      dictionary keyed by status raw values. */
  lemma StatusTextNoneIff(m: map<string, bool>, keys: seq<string>)
    requires IsKeyOrder(m, keys)
    requires forall k :: k in m ==> StatusFromRawValue(k).Some?
    ensures StatusText(m, keys) == "None" <==> forall k :: k in m ==> !m[k]
  {
    var active := ActiveKeys(m, keys);
    if active != [] {
      var k0 := active[0];
      assert k0 in m && m[k0];
      JoinStartsWithFirst(active);
      var st := StatusFromRawValue(k0).value;
      assert st.RawValue() == k0;
      assert |k0| > 4;
    }
  }

  /** A joined list starts with its first part. */
  lemma {:induction false} JoinStartsWithFirst(parts: seq<string>)
    requires |parts| > 0
    ensures |Join(parts, ListSeparator)| >= |parts[0]|
  {
  }
}

=== FILE: documents.dfy ===
/** The document store's data model as the app sees it: a document is a
    map from field names to loosely typed values, and the app reads fields
    back with Swift's conditional casts (`as?`), which yield no value when
    the stored value has another type. */
module Documents {
  import opened Wrappers
  import opened UserModel

  datatype Value =
    | Str(s: string)
    | Bool(b: bool)
    | Num(n: real)
    | Arr(items: seq<Value>)
    | Dict(entries: map<string, Value>)
    | Timestamp(seconds: int)
    | Null

  /** A stored document: its key and its fields. */
  datatype Document = Document(documentID: string, data: map<string, Value>)

  /** The outcome of a collection query: an error, a reply without a
      snapshot, or the documents in the order the store returned them. */
  datatype QueryResult =
    | QueryFailed(error: string)
    | NoSnapshot
    | Snapshot(docs: seq<Document>)

  /** `data[key] as? String`. */
  function AsString(v: Option<Value>): (r: Option<string>)
    ensures r.Some? <==> v.Some? && v.value.Str?
    ensures r.Some? ==> v.value == Str(r.value)
  {
    match v
    case Some(Str(s)) => Some(s)
    case _ => None
  }

  /** `data[key] as? Bool`. */
  function AsBool(v: Option<Value>): (r: Option<bool>)
    ensures r.Some? <==> v.Some? && v.value.Bool?
    ensures r.Some? ==> v.value == Bool(r.value)
  {
    match v
    case Some(Bool(b)) => Some(b)
    case _ => None
  }

  /** `data[key] as? Timestamp`. */
  function AsTimestamp(v: Option<Value>): (r: Option<int>)
    ensures r.Some? <==> v.Some? && v.value.Timestamp?
    ensures r.Some? ==> v.value == Timestamp(r.value)
  {
    match v
    case Some(Timestamp(t)) => Some(t)
    case _ => None
  }

  /** `data[key] as? [String: Bool]`: a map whose values are all booleans. */
  function AsBoolMap(v: Option<Value>): (r: Option<map<string, bool>>)
    ensures r.Some? <==> v.Some? && v.value.Dict? && forall k :: k in v.value.entries ==> v.value.entries[k].Bool?
    ensures r.Some? ==> r.value.Keys == v.value.entries.Keys
    ensures r.Some? ==> forall k :: k in r.value ==> v.value.entries[k] == Bool(r.value[k])
  {
    match v
    case Some(Dict(m)) =>
      if forall k :: k in m ==> m[k].Bool? then Some(map k | k in m :: m[k].b) else None
    case _ => None
  }

  /** The stored form of a boolean map. */
  function BoolMapValue(m: map<string, bool>): Value
  {
    Dict(map k | k in m :: Bool(m[k]))
  }

  lemma BoolMapRoundTrip(m: map<string, bool>)
    ensures AsBoolMap(Some(BoolMapValue(m))) == Some(m)
  {
    var v := BoolMapValue(m);
    assert forall k :: k in v.entries ==> v.entries[k].Bool?;
    var r := AsBoolMap(Some(v));
    assert r.value.Keys == m.Keys;
    assert r.Some?;
    assert forall k :: k in m ==> r.value[k] == m[k];
    assert r.value == m;
  }

  /** `data[key] as? [String]`. */
  function AsStringArray(v: Option<Value>): (r: Option<seq<string>>)
    ensures r.Some? <==> v.Some? && v.value.Arr? && forall i :: 0 <= i < |v.value.items| ==> v.value.items[i].Str?
    ensures r.Some? ==> |r.value| == |v.value.items|
    ensures r.Some? ==> forall i :: 0 <= i < |r.value| ==> v.value.items[i] == Str(r.value[i])
  {
    match v
    case Some(Arr(items)) =>
      if forall i :: 0 <= i < |items| ==> items[i].Str? then
        Some(seq(|items|, i requires 0 <= i < |items| => items[i].s))
      else None
    case _ => None
  }

  /** The stored form of a landmark encoding, `points.map { ["x": $0.x, "y": $0.y] }`. */
  function PointsValue(points: seq<Point>): (v: Value)
    ensures v.Arr? && |v.items| == |points|
    ensures forall i :: 0 <= i < |points| ==>
      v.items[i] == Dict(map["x" := Num(points[i].x), "y" := Num(points[i].y)])
  {
    Arr(seq(|points|, i requires 0 <= i < |points| =>
      Dict(map["x" := Num(points[i].x), "y" := Num(points[i].y)])))
  }

  predicate IsNumberDict(v: Value)
  {
    v.Dict? && forall k :: k in v.entries ==> v.entries[k].Num?
  }

  /** `value as? [[String: CGFloat]]` followed by
      `.map { CGPoint(x: $0["x"] ?? 0, y: $0["y"] ?? 0) }`: an array of
      number maps becomes points, a missing coordinate reading as 0. */
  function AsPoints(v: Option<Value>): (r: Option<seq<Point>>)
    ensures r.Some? <==> v.Some? && v.value.Arr? && forall i :: 0 <= i < |v.value.items| ==> IsNumberDict(v.value.items[i])
    ensures r.Some? ==> |r.value| == |v.value.items|
  {
    match v
    case Some(Arr(items)) =>
      if forall i :: 0 <= i < |items| ==> IsNumberDict(items[i]) then
        Some(seq(|items|, i requires 0 <= i < |items| && IsNumberDict(items[i]) =>
          Point(Coordinate(items[i], "x"), Coordinate(items[i], "y"))))
      else None
    case _ => None
  }

  function Coordinate(d: Value, key: string): real
    requires IsNumberDict(d)
  {
    if key in d.entries then d.entries[key].n else 0.0
  }

  /** Writing an encoding and casting it back gives the same points, in
      the same order. */
  lemma PointsRoundTrip(points: seq<Point>)
    ensures AsPoints(Some(PointsValue(points))) == Some(points)
  {
    var v := PointsValue(points);
    forall i | 0 <= i < |points|
      ensures IsNumberDict(v.items[i])
    {
    }
    var r := AsPoints(Some(v));
    forall i | 0 <= i < |points|
      ensures r.value[i] == points[i]
    {
    }
    assert r.value == points;
  }
}

=== FILE: firebase_server.dfy ===
/** The user-record mappings of the shared server object: documents of the
    "users" collection become `User` values on fetch, and a `User` becomes
    a document on registration. The store itself is left out; queries
    arrive as a `QueryResult`. */
module FireBaseServer {
  import opened Wrappers
  import opened UserModel
  import opened Documents

  /** The role as written to the store. */
  function RoleString(role: UserRole): (s: string)
    ensures s == "manager" <==> role == Manager
    ensures s != "manager" ==> s == "individual"
  {
    if role == Manager then "manager" else "individual"
  }

  /** `Status.allCases.reduce(into: [:]) { $0[$1.rawValue] = false }` over
      the given cases. */
  function AllFalseStatus(cases: seq<Status>): (m: map<string, bool>)
    ensures m.Keys == set st | st in cases :: st.RawValue()
    ensures forall k :: k in m ==> !m[k]
  {
    if cases == [] then map[]
    else
      var m := AllFalseStatus(cases[..|cases| - 1]);
      assert cases == cases[..|cases| - 1] + [cases[|cases| - 1]];
      m[cases[|cases| - 1].RawValue() := false]
  }

  /** The status map every new user record starts with: the four status
      raw values, each false. */
  function InitialStatus(): (m: map<string, bool>)
    ensures m.Keys == {"completed", "refused", "partial", "pending"}
    ensures forall k :: k in m ==> !m[k]
  {
    map["completed" := false, "refused" := false, "partial" := false, "pending" := false]
  }

  /** Reducing `Status.allCases` gives the initial status map. */
  lemma AllCasesGiveInitialStatus()
    ensures AllFalseStatus(AllStatuses) == InitialStatus()
  {
    AllStatusesEnumerate();
  }

  /** The document written by `registerUser(user:faceEncoding:)`. A missing
      unit number or building name is written as the empty string; the
      status map is reset to the initial one, whatever the user holds. */
  function UserDocument(user: User, faceEncoding: Value): (d: map<string, Value>)
    ensures d.Keys == {"id", "firstName", "lastName", "email", "password", "unitNumber",
                       "buildingName", "role", "status", "faceEncoding"}
    ensures Get(d, "id") == Some(Str(user.id))
    ensures Get(d, "email") == Some(Str(user.email)) && Get(d, "password") == Some(Str(user.password))
    ensures Get(d, "firstName") == Some(Str(user.firstName)) && Get(d, "lastName") == Some(Str(user.lastName))
    ensures Get(d, "unitNumber") == Some(Str(user.unitNumber.GetOr("")))
    ensures Get(d, "buildingName") == Some(Str(user.buildingName.GetOr("")))
    ensures Get(d, "role") == Some(Str("manager")) <==> user.role == Manager
    ensures Get(d, "role") == Some(Str("manager")) || Get(d, "role") == Some(Str("individual"))
    ensures Get(d, "status") == Some(BoolMapValue(InitialStatus()))
    ensures Get(d, "faceEncoding") == Some(faceEncoding)
  {
    map[
      "id" := Str(user.id),
      "firstName" := Str(user.firstName),
      "lastName" := Str(user.lastName),
      "email" := Str(user.email),
      "password" := Str(user.password),
      "unitNumber" := Str(user.unitNumber.GetOr("")),
      "buildingName" := Str(user.buildingName.GetOr("")),
      "role" := Str(RoleString(user.role)),
      "status" := BoolMapValue(InitialStatus()),
      "faceEncoding" := faceEncoding
    ]
  }

  /** The `User` built from one document in `fetchClients`: a string field
      that is missing or not a string reads as "", the role is manager
      exactly when the stored role is the string "manager", a missing
      status map reads as empty. The document ID and the face encoding are
      not read; the record gets the fresh UUID `id`. */
  function ClientFromDocument(doc: Document, id: string): (u: User)
    ensures u.id == id && u.firestoreDocumentID == ""
    ensures u.role == Manager <==> Get(doc.data, "role") == Some(Str("manager"))
    ensures Get(doc.data, "email") == Some(Str(u.email)) || (u.email == "" && AsString(Get(doc.data, "email")).None?)
    ensures Get(doc.data, "password") == Some(Str(u.password)) || (u.password == "" && AsString(Get(doc.data, "password")).None?)
    ensures Get(doc.data, "firstName") == Some(Str(u.firstName)) || (u.firstName == "" && AsString(Get(doc.data, "firstName")).None?)
    ensures Get(doc.data, "lastName") == Some(Str(u.lastName)) || (u.lastName == "" && AsString(Get(doc.data, "lastName")).None?)
    ensures u.unitNumber == AsString(Get(doc.data, "unitNumber"))
    ensures u.buildingName == AsString(Get(doc.data, "buildingName"))
    ensures AsBoolMap(Get(doc.data, "status")).None? ==> u.statusDictionary == map[]
    ensures AsBoolMap(Get(doc.data, "status")).Some? ==> u.statusDictionary == AsBoolMap(Get(doc.data, "status")).value
    ensures u.faceImage.None? && u.faceEncoding.None?
  {
    var data := doc.data;
    NewUser(
      id,
      email := AsString(Get(data, "email")).GetOr(""),
      password := AsString(Get(data, "password")).GetOr(""),
      role := if AsString(Get(data, "role")) == Some("manager") then Manager else Individual,
      firstName := AsString(Get(data, "firstName")).GetOr(""),
      lastName := AsString(Get(data, "lastName")).GetOr(""),
      unitNumber := AsString(Get(data, "unitNumber")),
      buildingName := AsString(Get(data, "buildingName")),
      statusDictionary := AsBoolMap(Get(data, "status")).GetOr(map[]))
  }

  /** What `fetchClients` hands to its completion: a client list (absent on
      error) and the error, if any. */
  datatype FetchOutcome = FetchOutcome(clients: Option<seq<User>>, error: Option<string>)

  /** `fetchClients`: an error yields no list, a reply without documents an
      empty list, and otherwise one user per document in document order.
      `uuid(i)` is the fresh UUID of the i-th record. */
  function FetchClients(result: QueryResult, uuid: nat -> string): (r: FetchOutcome)
    ensures result.QueryFailed? <==> r.clients.None?
    ensures result.QueryFailed? ==> r.error == Some(result.error)
    ensures !result.QueryFailed? ==> r.error.None?
    ensures result.NoSnapshot? ==> r.clients == Some([])
    ensures result.Snapshot? ==> r.clients.Some? && |r.clients.value| == |result.docs|
    ensures result.Snapshot? ==> forall i :: 0 <= i < |result.docs| ==>
      r.clients.value[i] == ClientFromDocument(result.docs[i], uuid(i))
  {
    match result
    case QueryFailed(e) => FetchOutcome(None, Some(e))
    case NoSnapshot => FetchOutcome(Some([]), None)
    case Snapshot(docs) =>
      FetchOutcome(Some(seq(|docs|, i requires 0 <= i < |docs| => ClientFromDocument(docs[i], uuid(i)))), None)
  }

  /** Registering a user and fetching the record back keeps email,
      password, names and role; a missing unit number or building name
      comes back as the empty string, the status map comes back as the
      initial one, and the UUID and face encoding are not carried over. */
  lemma RegisterThenFetch(user: User, faceEncoding: Value, docID: string, freshID: string)
    ensures var u := ClientFromDocument(Document(docID, UserDocument(user, faceEncoding)), freshID);
      && u.email == user.email && u.password == user.password
      && u.firstName == user.firstName && u.lastName == user.lastName
      && u.role == user.role
      && u.unitNumber == Some(user.unitNumber.GetOr(""))
      && u.buildingName == Some(user.buildingName.GetOr(""))
      && u.statusDictionary == InitialStatus()
      && u.id == freshID && u.faceEncoding.None?
  {
    BoolMapRoundTrip(InitialStatus());
  }
}

=== FILE: firestore_utils.dfy ===
/** The free functions that read one user record by document ID and push a
    user's status map back to the store. */
module FirestoreUtils {
  import opened Wrappers
  import opened UserModel
  import opened Documents
  import FireBaseServer

  /** A single-document read: the document, and whether it exists (`present`). */
  datatype DocumentSnapshot = DocumentSnapshot(doc: Document, present: bool)

  /** The role as `fetchUserFromFirestore` reads it: manager only for the
      capitalised string "Manager". */
  function RoleFromStoredAsWritten(stored: Option<Value>): (role: UserRole)
    ensures role == Manager <==> AsString(stored) == Some("Manager")
  {
    if AsString(stored).GetOr("") == "Manager" then Manager else Individual
  }

  /** `fetchUserFromFirestore`: no snapshot, or a snapshot of a missing
      document, gives no user; otherwise the user carries the document ID,
      missing string fields read as "", a missing status map reads as
      empty, and the role is read by `roleOf`. `id` is the fresh UUID. */
  function UserFromSnapshot(snapshot: Option<DocumentSnapshot>, id: string,
                            roleOf: Option<Value> -> UserRole): (r: Option<User>)
    ensures r.Some? <==> snapshot.Some? && snapshot.value.present
    ensures r.Some? ==> r.value.firestoreDocumentID == snapshot.value.doc.documentID
    ensures r.Some? ==> r.value.id == id
    ensures r.Some? ==> r.value.role == roleOf(Get(snapshot.value.doc.data, "role"))
    ensures r.Some? ==> var data := snapshot.value.doc.data;
      && (Get(data, "email") == Some(Str(r.value.email)) || (r.value.email == "" && AsString(Get(data, "email")).None?))
      && (Get(data, "password") == Some(Str(r.value.password)) || (r.value.password == "" && AsString(Get(data, "password")).None?))
      && (Get(data, "firstName") == Some(Str(r.value.firstName)) || (r.value.firstName == "" && AsString(Get(data, "firstName")).None?))
      && (Get(data, "lastName") == Some(Str(r.value.lastName)) || (r.value.lastName == "" && AsString(Get(data, "lastName")).None?))
      && r.value.unitNumber == AsString(Get(data, "unitNumber"))
      && r.value.buildingName == AsString(Get(data, "buildingName"))
      && (AsBoolMap(Get(data, "status")).None? ==> r.value.statusDictionary == map[])
      && (AsBoolMap(Get(data, "status")).Some? ==> r.value.statusDictionary == AsBoolMap(Get(data, "status")).value)
  {
    match snapshot
    case None => None
    case Some(DocumentSnapshot(doc, present)) =>
      if !present then None
      else
        var data := doc.data;
        Some(NewUser(
          id,
          firestoreDocumentID := doc.documentID,
          email := AsString(Get(data, "email")).GetOr(""),
          password := AsString(Get(data, "password")).GetOr(""),
          role := roleOf(Get(data, "role")),
          firstName := AsString(Get(data, "firstName")).GetOr(""),
          lastName := AsString(Get(data, "lastName")).GetOr(""),
          unitNumber := AsString(Get(data, "unitNumber")),
          buildingName := AsString(Get(data, "buildingName")),
          statusDictionary := AsBoolMap(Get(data, "status")).GetOr(map[])))
  }

  /** `fetchUserFromFirestore` as written. */
  function FetchUserFromFirestore(snapshot: Option<DocumentSnapshot>, id: string): Option<User>
  {
    UserFromSnapshot(snapshot, id, RoleFromStoredAsWritten)
  }

  /** The writer stores "manager" but this reader looks for "Manager": a
      registered manager reads back as an individual. */
  lemma ManagerReadsBackAsIndividual(user: User, faceEncoding: Value, docID: string, freshID: string)
    requires user.role == Manager
    ensures var r := FetchUserFromFirestore(
              Some(DocumentSnapshot(Document(docID, FireBaseServer.UserDocument(user, faceEncoding)), true)), freshID);
      r.Some? && r.value.role == Individual
  {
  }

  /** The role reading that matches the writer (and `fetchClients`). */
  function RoleFromStored(stored: Option<Value>): (role: UserRole)
    ensures role == Manager <==> AsString(stored) == Some("manager")
    ensures forall written: UserRole :: stored == Some(Str(FireBaseServer.RoleString(written))) ==> role == written
  {
    if AsString(stored).GetOr("") == "manager" then Manager else Individual
  }

  /** `fetchUserFromFirestore` with the role test corrected to "manager". */
  function FetchUserFromFirestoreCorrected(snapshot: Option<DocumentSnapshot>, id: string): Option<User>
  {
    UserFromSnapshot(snapshot, id, RoleFromStored)
  }

  /** With the corrected role test, a registered record reads back with the
      role, email, password and names it was written with, and the document
      ID it was stored under. */
  lemma RegisterThenFetchUserCorrected(user: User, faceEncoding: Value, docID: string, freshID: string)
    ensures var r := FetchUserFromFirestoreCorrected(
              Some(DocumentSnapshot(Document(docID, FireBaseServer.UserDocument(user, faceEncoding)), true)), freshID);
      && r.Some? && r.value.role == user.role
      && r.value.email == user.email && r.value.password == user.password
      && r.value.firstName == user.firstName && r.value.lastName == user.lastName
      && r.value.firestoreDocumentID == docID
      && r.value.statusDictionary == FireBaseServer.InitialStatus()
  {
    BoolMapRoundTrip(FireBaseServer.InitialStatus());
  }

  /** The `updateData(["status": ...])` request a status push issues. */
  datatype StatusUpdate = StatusUpdate(documentID: string, status: map<string, bool>)

  /** `updateStatusInFirestore(for:)`: a user without a document ID issues
      no request; otherwise the request targets that document and carries
      the user's whole status map. */
  function StatusUpdateFor(user: User): (r: Option<StatusUpdate>)
    ensures r.None? <==> user.firestoreDocumentID == ""
    ensures r.Some? ==> r.value.documentID == user.firestoreDocumentID
    ensures r.Some? ==> r.value.status == user.statusDictionary
  {
    if user.firestoreDocumentID == "" then None
    else Some(StatusUpdate(user.firestoreDocumentID, user.statusDictionary))
  }
}

=== FILE: login.dfy ===
/**
 * The two sign-in paths of the login screen: credential lookup over the
 * fetched clients, and the face matcher, a linear argmax of similarity
 * over the clients' stored encodings followed by a threshold test.
 */
module Login {
  import opened Wrappers
  import opened UserModel
  import opened Documents
  import opened Seqs
  import FireBaseServer

  /** The two flags the login screen updates. */
  datatype LoginState = LoginState(isLoginFailed: bool, isLoggedIn: bool)

  /** The outcome of a failed attempt: flag the failure, keep the session. */
  function Failed(state: LoginState): (s: LoginState)
    ensures s.isLoginFailed && s.isLoggedIn == state.isLoggedIn
  {
    state.(isLoginFailed := true)
  }

  /** The outcome of a successful attempt. */
  const Succeeded := LoginState(false, true)

  /** The fetch delivered a client list and no error. */
  predicate Fetched(fetched: FireBaseServer.FetchOutcome)
  {
    fetched.error.None? && fetched.clients.Some?
  }

  // ---------------------------------------------------------------------
  // Credential login
  // ---------------------------------------------------------------------

  /** Exact (case-sensitive) comparison of both credentials. */
  predicate CredentialsMatch(u: User, email: string, password: string)
  {
    u.email == email && u.password == password
  }

  /** Email/password sign-in against the fetched clients. */
  function AuthenticateUser(fetched: FireBaseServer.FetchOutcome, email: string, password: string,
                            state: LoginState): (s: LoginState)
    ensures !Fetched(fetched) ==> s == Failed(state)
    ensures Fetched(fetched) ==>
      (s == Succeeded <==>
         exists i :: 0 <= i < |fetched.clients.value|
                     && CredentialsMatch(fetched.clients.value[i], email, password))
    ensures s == Succeeded || s == Failed(state)
  {
    if fetched.error.Some? then Failed(state)
    else match fetched.clients
      case None => Failed(state)
      case Some(clients) =>
        match FirstIndex(clients, u => CredentialsMatch(u, email, password))
        case Some(_) => Succeeded
        case None => Failed(state)
  }

  // ---------------------------------------------------------------------
  // Face login
  // ---------------------------------------------------------------------

  /** The strict acceptance threshold for the best similarity. */
  const FaceMatchThreshold: real := 0.8

  /** How a client's stored encoding is recovered; `None` skips the client. */
  type Decoder = User -> Option<seq<Point>>

  /** The point-similarity function the scan calls. */
  type PointSimilarity = (seq<Point>, seq<Point>) -> real

  /** Client `i` has a decodable stored encoding. */
  predicate IsCandidate(clients: seq<User>, i: int, decode: Decoder)
  {
    0 <= i < |clients| && decode(clients[i]).Some?
  }

  /** The similarity of candidate `i` to the captured encoding. */
  function ScoreAt(clients: seq<User>, i: int, captured: seq<Point>, decode: Decoder,
                   sim: PointSimilarity): real
    requires IsCandidate(clients, i, decode)
  {
    sim(captured, decode(clients[i]).value)
  }

  /** The scan's running state: no match yet, or the index of the best
      client so far and its similarity. */
  datatype Best = NoMatch | Match(index: nat, score: real)
  {
    /** `highestSimilarity`, which starts at 0. */
    function Highest(): real
    {
      if NoMatch? then 0.0 else score
    }
  }

  /** One loop iteration over client `i`. */
  function Step(b: Best, clients: seq<User>, i: nat, captured: seq<Point>, decode: Decoder,
                sim: PointSimilarity): (r: Best)
    requires i < |clients|
    ensures !IsCandidate(clients, i, decode) ==> r == b
    ensures IsCandidate(clients, i, decode) && ScoreAt(clients, i, captured, decode, sim) > b.Highest()
      ==> r == Match(i, ScoreAt(clients, i, captured, decode, sim))
    ensures IsCandidate(clients, i, decode) && ScoreAt(clients, i, captured, decode, sim) <= b.Highest()
      ==> r == b
    ensures r == b || r == Match(i, ScoreAt(clients, i, captured, decode, sim))
  {
    match decode(clients[i])
    case None => b
    case Some(stored) =>
      var similarity := sim(captured, stored);
      if similarity > b.Highest() then Match(i, similarity) else b
  }

  /** The scan over the first `n` clients. The result is the first
      candidate attaining the maximum similarity, provided that maximum
      is positive; otherwise there is no match. */
  function ScanPrefix(clients: seq<User>, n: nat, captured: seq<Point>, decode: Decoder,
                      sim: PointSimilarity): (b: Best)
    requires n <= |clients|
    ensures b.Match? ==>
      b.index < n && IsCandidate(clients, b.index, decode)
      && b.score == ScoreAt(clients, b.index, captured, decode, sim) && b.score > 0.0
    ensures forall i :: 0 <= i < n && IsCandidate(clients, i, decode) ==>
      ScoreAt(clients, i, captured, decode, sim) <= b.Highest()
    ensures b.Match? ==> forall j :: 0 <= j < b.index && IsCandidate(clients, j, decode) ==>
      ScoreAt(clients, j, captured, decode, sim) < b.score
  {
    if n == 0 then NoMatch
    else Step(ScanPrefix(clients, n - 1, captured, decode, sim), clients, n - 1, captured, decode, sim)
  }

  /** The scan over the whole client list: a match is a candidate with
      positive similarity that no candidate exceeds and no earlier
      candidate reaches. */
  function Scan(clients: seq<User>, captured: seq<Point>, decode: Decoder,
                sim: PointSimilarity): (b: Best)
    ensures b.Match? ==>
      IsCandidate(clients, b.index, decode)
      && b.score == ScoreAt(clients, b.index, captured, decode, sim) && b.score > 0.0
    ensures forall i :: IsCandidate(clients, i, decode) ==>
      ScoreAt(clients, i, captured, decode, sim) <= b.Highest()
    ensures b.Match? ==> forall j :: 0 <= j < b.index && IsCandidate(clients, j, decode) ==>
      ScoreAt(clients, j, captured, decode, sim) < b.score
  {
    ScanPrefix(clients, |clients|, captured, decode, sim)
  }

  /** The id the scan reports as `bestMatch`. */
  function BestMatchID(clients: seq<User>, b: Best): (r: Option<string>)
    requires b.Match? ==> b.index < |clients|
    ensures r.Some? <==> b.Match?
    ensures b.Match? ==> r == Some(clients[b.index].id)
  {
    if b.Match? then Some(clients[b.index].id) else None
  }

  /** The scan exactly as the loop runs it, carrying the matched id
      rather than the index. */
  method ScanClients(clients: seq<User>, captured: seq<Point>, decode: Decoder,
                     sim: PointSimilarity) returns (bestMatch: Option<string>, highestSimilarity: real)
    ensures bestMatch == BestMatchID(clients, Scan(clients, captured, decode, sim))
    ensures highestSimilarity == Scan(clients, captured, decode, sim).Highest()
  {
    bestMatch := None;
    highestSimilarity := 0.0;
    var i := 0;
    while i < |clients|
      invariant 0 <= i <= |clients|
      invariant bestMatch == BestMatchID(clients, ScanPrefix(clients, i, captured, decode, sim))
      invariant highestSimilarity == ScanPrefix(clients, i, captured, decode, sim).Highest()
    {
      ScanPrefixNext(clients, i, captured, decode, sim);
      var user := clients[i];
      match decode(user) {
        case None =>
        case Some(storedPoints) =>
          var similarity := sim(captured, storedPoints);
          if similarity > highestSimilarity {
            highestSimilarity := similarity;
            bestMatch := Some(user.id);
          }
      }
      i := i + 1;
    }
  }

  /** The prefix scan extended by one client, in the loop's terms. */
  lemma ScanPrefixNext(clients: seq<User>, i: nat, captured: seq<Point>, decode: Decoder,
                       sim: PointSimilarity)
    requires i < |clients|
    ensures var b := ScanPrefix(clients, i, captured, decode, sim);
      var next := ScanPrefix(clients, i + 1, captured, decode, sim);
      && (decode(clients[i]).None? ==> next == b)
      && (decode(clients[i]).Some? && sim(captured, decode(clients[i]).value) > b.Highest()
          ==> next == Match(i, sim(captured, decode(clients[i]).value)))
      && (decode(clients[i]).Some? && sim(captured, decode(clients[i]).value) <= b.Highest() ==> next == b)
  {
  }

  /** The accept test after the scan. */
  predicate Accepts(b: Best)
  {
    b.Match? && b.Highest() > FaceMatchThreshold
  }

  /** Face sign-in: `captured` is the encoder's output (`None` when it
      failed), `decode` recovers each client's stored encoding. */
  function AuthenticateWithFace(fetched: FireBaseServer.FetchOutcome, captured: Option<seq<Point>>,
                                decode: Decoder, sim: PointSimilarity, state: LoginState): (s: LoginState)
    ensures !Fetched(fetched) || captured.None? ==> s == Failed(state)
    ensures s == Succeeded || s == Failed(state)
  {
    if fetched.error.Some? then Failed(state)
    else match fetched.clients
      case None => Failed(state)
      case Some(clients) =>
        match captured
        case None => Failed(state)
        case Some(encoding) =>
          if Accepts(Scan(clients, encoding, decode, sim)) then Succeeded else Failed(state)
  }

  /** The scan is the first candidate attaining the maximum: no earlier
      candidate reaches its score and no candidate exceeds it. */
  lemma {:induction false} ScanIsFirstMaximum(clients: seq<User>, captured: seq<Point>, decode: Decoder,
                                              sim: PointSimilarity, k: nat)
    requires IsCandidate(clients, k, decode)
    requires ScoreAt(clients, k, captured, decode, sim) > 0.0
    requires forall i :: 0 <= i < |clients| && IsCandidate(clients, i, decode) ==>
      ScoreAt(clients, i, captured, decode, sim) <= ScoreAt(clients, k, captured, decode, sim)
    requires forall j :: 0 <= j < k && IsCandidate(clients, j, decode) ==>
      ScoreAt(clients, j, captured, decode, sim) < ScoreAt(clients, k, captured, decode, sim)
    ensures Scan(clients, captured, decode, sim) == Match(k, ScoreAt(clients, k, captured, decode, sim))
  {
    var b := Scan(clients, captured, decode, sim);
    var sk := ScoreAt(clients, k, captured, decode, sim);
    assert sk <= b.Highest();
  }

  /** Appending a client whose encoding cannot be decoded leaves the scan
      unchanged. */
  lemma {:induction false} UndecodableSkipped(clients: seq<User>, u: User, captured: seq<Point>,
                                              decode: Decoder, sim: PointSimilarity)
    requires decode(u).None?
    ensures Scan(clients + [u], captured, decode, sim) == Scan(clients, captured, decode, sim)
  {
    var all := clients + [u];
    ScanPrefixAgrees(clients, all, |clients|, captured, decode, sim);
  }

  /** The scan of a prefix only looks at that prefix. */
  lemma {:induction false} ScanPrefixAgrees(a: seq<User>, b: seq<User>, n: nat, captured: seq<Point>,
                                            decode: Decoder, sim: PointSimilarity)
    requires n <= |a| && n <= |b| && a[..n] == b[..n]
    ensures ScanPrefix(a, n, captured, decode, sim) == ScanPrefix(b, n, captured, decode, sim)
  {
    if n > 0 {
      assert a[..n - 1] == a[..n][..n - 1] && b[..n - 1] == b[..n][..n - 1];
      ScanPrefixAgrees(a, b, n - 1, captured, decode, sim);
      assert a[n - 1] == a[..n][n - 1];
      assert b[n - 1] == b[..n][n - 1];
    }
  }

  /** Face sign-in succeeds iff the fetch and the encoder worked and some
      client's decodable encoding scores strictly above the threshold. */
  lemma {:induction false} FaceLoginSucceedsIff(fetched: FireBaseServer.FetchOutcome,
                                                captured: Option<seq<Point>>, decode: Decoder,
                                                sim: PointSimilarity, state: LoginState)
    ensures AuthenticateWithFace(fetched, captured, decode, sim, state) == Succeeded <==>
      Fetched(fetched) && captured.Some? &&
      exists i :: IsCandidate(fetched.clients.value, i, decode)
                  && ScoreAt(fetched.clients.value, i, captured.value, decode, sim) > FaceMatchThreshold
  {
    if Fetched(fetched) && captured.Some? {
      var clients := fetched.clients.value;
      var b := Scan(clients, captured.value, decode, sim);
      if b.Match? && b.score > FaceMatchThreshold {
        assert IsCandidate(clients, b.index, decode);
      }
    }
  }

  // ---------------------------------------------------------------------
  // Where the stored encoding comes from
  // ---------------------------------------------------------------------

  /** The decoder as written: the `"faceEncoding"` entry of the status
      dictionary cast to an array of `{x, y}` dictionaries. Every entry of
      that dictionary is a Bool, so the cast always fails. */
  function StoredEncodingAsWritten(u: User): (r: Option<seq<Point>>)
    ensures r.None?
  {
    match Get(u.statusDictionary, "faceEncoding")
    case None => None
    case Some(flag) => AsPoints(Some(Bool(flag)))
  }

  /** With the decoder as written no client is ever a candidate, so face
      sign-in fails whatever the fetched clients and the captured face. */
  lemma FaceLoginNeverSucceedsAsWritten(fetched: FireBaseServer.FetchOutcome,
                                        captured: Option<seq<Point>>, sim: PointSimilarity,
                                        state: LoginState)
    ensures AuthenticateWithFace(fetched, captured, StoredEncodingAsWritten, sim, state) == Failed(state)
  {
    FaceLoginSucceedsIff(fetched, captured, StoredEncodingAsWritten, sim, state);
  }

  /** The intended reader of a client document: the `fetchClients` mapping
      plus the stored `"faceEncoding"` array. */
  function ClientWithStoredEncoding(doc: Document, id: string): (u: User)
    ensures u.(faceEncoding := None) == FireBaseServer.ClientFromDocument(doc, id)
    ensures forall p :: Get(doc.data, "faceEncoding") == Some(PointsValue(p)) ==> u.faceEncoding == Some(p)
    ensures Get(doc.data, "faceEncoding").None? ==> u.faceEncoding.None?
  {
    forall p | Get(doc.data, "faceEncoding") == Some(PointsValue(p))
      ensures AsPoints(Get(doc.data, "faceEncoding")) == Some(p)
    {
      PointsRoundTrip(p);
    }
    FireBaseServer.ClientFromDocument(doc, id).(faceEncoding := AsPoints(Get(doc.data, "faceEncoding")))
  }

  /** With the intended reader, a registered encoding comes back unchanged
      as the client's own `faceEncoding`, so the face matcher sees it. */
  lemma RegisteredEncodingIsCandidate(user: User, encoding: seq<Point>, documentID: string, id: string)
    ensures ClientWithStoredEncoding(
              Document(documentID, FireBaseServer.UserDocument(user, PointsValue(encoding))), id).faceEncoding
            == Some(encoding)
  {
    PointsRoundTrip(encoding);
  }
}

=== FILE: personal_detail.dfy ===
/** A client's detail page: role label, optional address rows and the
    status toggles, each of which pushes the new status map. */
module PersonalDetail {
  import opened Wrappers
  import opened UserModel
  import opened Text
  import FirestoreUtils
  import FireBaseServer

  /** The role shown on the page. */
  function RoleLabel(role: UserRole): (s: string)
    ensures s == "Manager" <==> role == Manager
    ensures s != "Manager" ==> s == "Individual"
    ensures Lower(s) == FireBaseServer.RoleString(role)
  {
    if role == Manager then "Manager" else "Individual"
  }

  /** An optional row: shown, with its text, only for a present and
      non-empty value. */
  function OptionalRow(value: Option<string>): (r: Option<string>)
    ensures r.Some? <==> value.Some? && value.value != ""
    ensures r.Some? ==> r.value == value.value
  {
    match value
    case Some(v) => if v != "" then Some(v) else None
    case None => None
  }

  function UnitNumberRow(u: User): (r: Option<string>)
    ensures r.Some? <==> u.unitNumber.Some? && u.unitNumber.value != ""
    ensures r.Some? ==> r.value == u.unitNumber.value
  {
    OptionalRow(u.unitNumber)
  }

  function BuildingNameRow(u: User): (r: Option<string>)
    ensures r.Some? <==> u.buildingName.Some? && u.buildingName.value != ""
    ensures r.Some? ==> r.value == u.buildingName.value
  {
    OptionalRow(u.buildingName)
  }

  /** ASCII upper-casing of one character. */
  function UpperChar(c: char): (r: char)
    ensures 'a' <= c <= 'z' ==> r as int == c as int - 32
    ensures !('a' <= c <= 'z') ==> r == c
  {
    if 'a' <= c <= 'z' then (c as int - 32) as char else c
  }

  /** `capitalized` of a one-word string: first letter upper, rest lower. */
  function Capitalized(s: string): (r: string)
    ensures |r| == |s|
    ensures |s| > 0 ==> r[0] == UpperChar(s[0]) && r[1..] == Lower(s[1..])
  {
    if s == [] then [] else [UpperChar(s[0])] + Lower(s[1..])
  }

  /** One toggle: its label and whether it is on. */
  datatype Toggle = Toggle(title: string, isOn: bool)

  /** The toggles, one per status in declaration order, each reading the
      status dictionary (absent keys read as off). */
  function Toggles(u: User): (r: seq<Toggle>)
    ensures |r| == |AllStatuses|
    ensures forall i :: 0 <= i < |r| ==>
      r[i].isOn == IsStatusSet(u.statusDictionary, AllStatuses[i])
      && r[i].title == Capitalized(AllStatuses[i].RawValue())
  {
    seq(|AllStatuses|, i requires 0 <= i < |AllStatuses| =>
      Toggle(Capitalized(AllStatuses[i].RawValue()), IsStatusSet(u.statusDictionary, AllStatuses[i])))
  }

  /** The toggle labels read "Completed", "Refused", "Partial", "Pending". */
  lemma ToggleLabels(u: User)
    ensures [Toggles(u)[0].title, Toggles(u)[1].title, Toggles(u)[2].title, Toggles(u)[3].title]
         == ["Completed", "Refused", "Partial", "Pending"]
  {
    var t := Toggles(u);
    StatusTitles();
    assert t[0].title == Capitalized(AllStatuses[0].RawValue());
    assert t[1].title == Capitalized(AllStatuses[1].RawValue());
    assert t[2].title == Capitalized(AllStatuses[2].RawValue());
    assert t[3].title == Capitalized(AllStatuses[3].RawValue());
  }

  /** The capitalised raw values. */
  lemma StatusTitles()
    ensures Capitalized("completed") == "Completed"
    ensures Capitalized("refused") == "Refused"
    ensures Capitalized("partial") == "Partial"
    ensures Capitalized("pending") == "Pending"
  {
    CompletedTitle();
    RefusedTitle();
    PartialTitle();
    PendingTitle();
  }

  lemma CompletedTitle()
    ensures Capitalized("completed") == "Completed"
  {
    CapitalizedWord("completed", 'C', "ompleted");
  }

  lemma RefusedTitle()
    ensures Capitalized("refused") == "Refused"
  {
    CapitalizedWord("refused", 'R', "efused");
  }

  lemma PartialTitle()
    ensures Capitalized("partial") == "Partial"
  {
    CapitalizedWord("partial", 'P', "artial");
  }

  lemma PendingTitle()
    ensures Capitalized("pending") == "Pending"
  {
    CapitalizedWord("pending", 'P', "ending");
  }

  /** A lower-case word capitalises to its upper-cased first letter
      followed by the rest. */
  lemma CapitalizedWord(w: string, first: char, rest: string)
    requires |w| > 0 && 'a' <= w[0] <= 'z' && first as int == w[0] as int - 32
    requires w[1..] == rest
    requires forall i :: 0 <= i < |rest| ==> !('A' <= rest[i] <= 'Z')
    ensures Capitalized(w) == [first] + rest
  {
    LowerOfLowercase(rest);
  }

  /** Text without capitals is its own lower case. */
  lemma LowerOfLowercase(s: string)
    requires forall i :: 0 <= i < |s| ==> !('A' <= s[i] <= 'Z')
    ensures Lower(s) == s
  {
  }

  /** The toggle's setter: records the value for that status only and
      then pushes the whole map, unless the user has no document ID. */
  function SetToggle(u: User, st: Status, isSelected: bool): (r: (User, Option<FirestoreUtils.StatusUpdate>))
    ensures r.0 == u.(statusDictionary := r.0.statusDictionary)
    ensures IsStatusSet(r.0.statusDictionary, st) == isSelected
    ensures forall k :: k in u.statusDictionary && k != st.RawValue() ==>
      k in r.0.statusDictionary && r.0.statusDictionary[k] == u.statusDictionary[k]
    ensures r.0.statusDictionary.Keys == u.statusDictionary.Keys + {st.RawValue()}
    ensures r.1.None? <==> u.firestoreDocumentID == ""
    ensures r.1.Some? ==> r.1.value == FirestoreUtils.StatusUpdate(u.firestoreDocumentID, r.0.statusDictionary)
  {
    var updated := u.(statusDictionary := SetStatus(u.statusDictionary, st, isSelected));
    (updated, FirestoreUtils.StatusUpdateFor(updated))
  }

  /** Flipping a toggle and flipping it back restores what every toggle
      shows. */
  lemma ToggleTwiceRestores(u: User, i: nat)
    requires i < |AllStatuses|
    ensures var st := AllStatuses[i];
      var once := SetToggle(u, st, !IsStatusSet(u.statusDictionary, st)).0;
      var twice := SetToggle(once, st, IsStatusSet(u.statusDictionary, st)).0;
      Toggles(twice) == Toggles(u)
  {
    var st := AllStatuses[i];
    var once := SetToggle(u, st, !IsStatusSet(u.statusDictionary, st)).0;
    var twice := SetToggle(once, st, IsStatusSet(u.statusDictionary, st)).0;
    forall j | 0 <= j < |AllStatuses|
      ensures IsStatusSet(twice.statusDictionary, AllStatuses[j]) == IsStatusSet(u.statusDictionary, AllStatuses[j])
    {
      SetThenRead(once.statusDictionary, st, IsStatusSet(u.statusDictionary, st), AllStatuses[j]);
      SetThenRead(u.statusDictionary, st, !IsStatusSet(u.statusDictionary, st), AllStatuses[j]);
    }
  }
}

=== FILE: photo_upload.dfy ===
/** The profile-photo upload request: a multipart/form-data body with one
    part (section 4.2 of RFC 7578 for its Content-Disposition header, and
    the dash-boundary and close-delimiter syntax of section 5.1.1 of
    RFC 2046), and the download URL. */
module PhotoUpload {
  import opened Wrappers
  import opened Utf8
  import opened Text
  import UploadServer

  const UploadURL := "http://localhost:3000/upload"
  const DownloadBase := "http://localhost:3000/download/"
  const FieldName := "photo"
  const CRLF := "\r\n"

  /** The start of the Content-Disposition header, up to the file name. */
  const DispositionStart := "Content-Disposition: form-data; name=\"" + FieldName + "\"; filename=\""

  /** The closing quote of the file name and the end of its header line. */
  const QuoteCRLF := "\"" + CRLF

  /** The Content-Type header line and the blank line ending the headers. */
  const TypeLines := "Content-Type: image/jpeg" + CRLF + CRLF

  /** The bytes before the file name: the dash-boundary line and the
      start of the Content-Disposition header. */
  function PartOpening(boundary: string): string
  {
    "--" + boundary + CRLF + DispositionStart
  }

  /** The header terminator after the file name. */
  const PartHeaderTail := QuoteCRLF + TypeLines

  /** The close delimiter. */
  function CloseDelimiter(boundary: string): string
  {
    CRLF + "--" + boundary + "--" + CRLF
  }

  /** The body, appended piece by piece as the upload does: the
      dash-boundary line, the Content-Disposition line, the Content-Type
      lines, the image and the close delimiter. */
  function MultipartBody(boundary: string, userID: string, imageData: seq<byte>): (body: seq<byte>)
    ensures body == Encode(PartOpening(boundary)) + Encode(userID + ".jpg") + Encode(PartHeaderTail)
                    + imageData + Encode(CloseDelimiter(boundary))
  {
    var filename := userID;
    var body := Encode("--" + boundary + CRLF)
      + Encode(DispositionStart + filename + ".jpg" + QuoteCRLF)
      + Encode(TypeLines)
      + imageData
      + Encode(CRLF + "--" + boundary + "--" + CRLF);
    Regroup("--" + boundary + CRLF, DispositionStart, filename, ".jpg", QuoteCRLF, TypeLines);
    body
  }

  /** Encoding three appended lines equals encoding them regrouped as
      opening, file name and header tail. */
  lemma Regroup(a: string, d: string, u: string, j: string, q: string, t: string)
    ensures Encode(a) + Encode(d + u + j + q) + Encode(t) == Encode(a + d) + Encode(u + j) + Encode(q + t)
  {
    var f := u + j;
    assert d + u + j + q == (d + f) + q;
    EncodeAppend(d + f, q);
    EncodeAppend(d, f);
    EncodeAppend(a, d);
    EncodeAppend(q, t);
    SeqRegroup(Encode(a), Encode(d), Encode(f), Encode(q), Encode(t));
  }

  /** Associativity for the five encoded pieces. */
  lemma SeqRegroup(a: seq<byte>, d: seq<byte>, f: seq<byte>, q: seq<byte>, t: seq<byte>)
    ensures a + (d + f + q) + t == (a + d) + f + (q + t)
  {
  }

  /** A built upload request. */
  datatype UploadRequest = UploadRequest(httpMethod: string, url: string, contentType: string, body: seq<byte>)

  /** The Content-Type header for a boundary. */
  function ContentType(boundary: string): string
  {
    "multipart/form-data; boundary=" + boundary
  }

  /** `uploadImageForUser(image:userID:)`: no request when the JPEG
      encoding failed or the user ID is empty. `boundary` is the generated
      UUID string. */
  function BuildUpload(jpegData: Option<seq<byte>>, userID: string, boundary: string): (r: Option<UploadRequest>)
    ensures r.None? <==> jpegData.None? || userID == ""
    ensures r.Some? ==> r.value.httpMethod == "PUT" && r.value.url == UploadURL
    ensures r.Some? ==> r.value.contentType == ContentType(boundary)
    ensures r.Some? ==> r.value.body == MultipartBody(boundary, userID, jpegData.value)
  {
    match jpegData
    case None => None
    case Some(imageData) =>
      if userID == "" then None
      else Some(UploadRequest("PUT", UploadURL, ContentType(boundary), MultipartBody(boundary, userID, imageData)))
  }

  /** The boundary parameter of a multipart Content-Type value. */
  function BoundaryParameter(contentType: string): (r: Option<string>)
    ensures r.Some? ==> contentType == ContentType(r.value)
  {
    var prefix := ContentType("");
    if prefix <= contentType then
      assert contentType == prefix + contentType[|prefix|..];
      Some(contentType[|prefix|..])
    else None
  }

  /** One form-data part as a receiver reads it. */
  datatype FilePart = FilePart(filename: seq<byte>, data: seq<byte>)

  /** Index of the first carriage return. */
  function FirstCR(s: seq<byte>): (r: Option<nat>)
    ensures r.Some? ==> r.value < |s| && s[r.value] == 13
    ensures r.Some? ==> forall j :: 0 <= j < r.value ==> s[j] != 13
    ensures r.None? ==> 13 !in s
  {
    if s == [] then None
    else if s[0] == 13 then Some(0)
    else match FirstCR(s[1..])
      case None => None
      case Some(i) => Some(i + 1)
  }

  /** Reads a body of the shape above back: the opening with the given
      boundary, then the rest of the part. */
  function ParseBody(boundary: string, body: seq<byte>): (r: Option<FilePart>)
  {
    var opening := Encode(PartOpening(boundary));
    if !(opening <= body) then None
    else ParsePart(boundary, body[|opening|..])
  }

  /** After the opening: a file name ending at the first carriage return
      (less the closing quote before it), the header tail, and the rest. */
  function ParsePart(boundary: string, afterOpening: seq<byte>): (r: Option<FilePart>)
  {
    match FirstCR(afterOpening)
    case None => None
    case Some(cr) =>
      if cr < 1 then None
      else
        var name := afterOpening[..cr - 1];
        var rest := afterOpening[cr - 1..];
        var tail := Encode(PartHeaderTail);
        if !(tail <= rest) then None
        else ParseContent(boundary, name, rest[|tail|..])
  }

  /** After the headers: the data, and the close delimiter at the very end. */
  function ParseContent(boundary: string, name: seq<byte>, content: seq<byte>): (r: Option<FilePart>)
    ensures r.Some? ==> r.value.filename == name && content == r.value.data + Encode(CloseDelimiter(boundary))
  {
    var close := Encode(CloseDelimiter(boundary));
    if |content| < |close| || content[|content| - |close|..] != close then None
    else
      assert content == content[..|content| - |close|] + close;
      Some(FilePart(name, content[..|content| - |close|]))
  }

  /** The receiver reads back the boundary from the header, and with it
      the file name userID + ".jpg" and the image bytes unchanged,
      whatever the boundary and the bytes, for a user ID without a
      carriage return. */
  lemma UploadRoundTrip(jpegData: seq<byte>, userID: string, boundary: string)
    requires userID != ""
    requires '\r' !in userID
    ensures var r := BuildUpload(Some(jpegData), userID, boundary).value;
      BoundaryParameter(r.contentType) == Some(boundary)
      && ParseBody(boundary, r.body) == Some(FilePart(Encode(userID + ".jpg"), jpegData))
  {
    BoundaryRoundTrip(boundary);
    NameHasNoCR(userID);
    ParseShape(boundary, Encode(userID + ".jpg"), jpegData);
  }

  /** The boundary is read back from the Content-Type value it was put in. */
  lemma BoundaryRoundTrip(boundary: string)
    ensures BoundaryParameter(ContentType(boundary)) == Some(boundary)
  {
    var prefix := ContentType("");
    assert ContentType(boundary) == prefix + boundary;
    assert ContentType(boundary)[|prefix|..] == boundary;
  }

  /** The encoded file name of a user ID without a carriage return has no
      carriage-return byte. */
  lemma NameHasNoCR(userID: string)
    requires '\r' !in userID
    ensures 13 !in Encode(userID + ".jpg")
  {
    assert '\r' !in userID + ".jpg";
    AsciiByteOnlyFromChar(userID + ".jpg", '\r');
  }

  /** The header tail starts with the closing quote and a carriage return. */
  lemma HeaderTailStart()
    ensures |Encode(PartHeaderTail)| >= 2
    ensures Encode(PartHeaderTail)[0] == 34 && Encode(PartHeaderTail)[1] == 13
  {
    EncodeAscii(PartHeaderTail);
  }

  /** Any file name without a carriage return, and any data, parse back. */
  lemma ParseShape(boundary: string, name: seq<byte>, data: seq<byte>)
    requires 13 !in name
    ensures ParseBody(boundary, Encode(PartOpening(boundary)) + name + Encode(PartHeaderTail) + data
                                + Encode(CloseDelimiter(boundary)))
         == Some(FilePart(name, data))
  {
    var opening := Encode(PartOpening(boundary));
    var tail := Encode(PartHeaderTail);
    var close := Encode(CloseDelimiter(boundary));
    AfterPrefix(opening, name, tail, data, close);
    PartShape(boundary, name, data);
  }

  /** A body of five pieces, past its first piece, is the other four. */
  lemma AfterPrefix(a: seq<byte>, b: seq<byte>, c: seq<byte>, d: seq<byte>, e: seq<byte>)
    ensures a <= a + b + c + d + e
    ensures (a + b + c + d + e)[|a|..] == b + (c + (d + e))
  {
    assert a + b + c + d + e == a + (b + (c + (d + e)));
  }

  /** The part after the opening parses back to the name and the data. */
  lemma PartShape(boundary: string, name: seq<byte>, data: seq<byte>)
    requires 13 !in name
    ensures ParsePart(boundary, name + (Encode(PartHeaderTail) + (data + Encode(CloseDelimiter(boundary)))))
         == Some(FilePart(name, data))
  {
    var tail := Encode(PartHeaderTail);
    var close := Encode(CloseDelimiter(boundary));
    var afterOpening := name + (tail + (data + close));
    HeaderTailStart();
    FirstCRAfterName(name, tail + (data + close));
    assert afterOpening[..|name|] == name;
    assert afterOpening[|name|..] == tail + (data + close);
    assert (tail + (data + close))[|tail|..] == data + close;
    ContentShape(boundary, name, data);
  }

  /** The content after the headers parses back to the data. */
  lemma ContentShape(boundary: string, name: seq<byte>, data: seq<byte>)
    ensures ParseContent(boundary, name, data + Encode(CloseDelimiter(boundary))) == Some(FilePart(name, data))
  {
    var close := Encode(CloseDelimiter(boundary));
    var content := data + close;
    assert content[|content| - |close|..] == close;
    assert content[..|content| - |close|] == data;
  }

  /** The first carriage return after a name without one is the one
      following the closing quote. */
  lemma FirstCRAfterName(name: seq<byte>, more: seq<byte>)
    requires 13 !in name
    requires |more| >= 2 && more[0] == 34 && more[1] == 13
    ensures FirstCR(name + more) == Some(|name| + 1)
  {
    var s := name + more;
    assert s[|name| + 1] == 13;
    assert forall j :: 0 <= j < |name| ==> s[j] == name[j];
    assert s[|name|] == 34;
  }

  /** The URL a stored photo is fetched from. */
  function DownloadURL(filename: string): (url: string)
    ensures DownloadBase <= url
    ensures url[|DownloadBase|..] == filename + ".jpg"
  {
    DownloadBase + filename + ".jpg"
  }

  /** The file a user's photo is uploaded as is the one its download URL
      names, for a user ID without whitespace or slashes. */
  lemma UploadedPhotoIsDownloadable(userID: string)
    requires '/' !in userID
    requires forall k :: 0 <= k < |userID| ==> !IsSpace(userID[k])
    ensures DownloadURL(userID) == DownloadBase + UploadServer.StoredFilename(userID + ".jpg")
  {
    UploadServer.UserPhotoNameKept(userID);
  }
}

=== FILE: registration.dfy ===
/** The registration form: the email recogniser, the Register button's
    guard and the record a successful registration writes. */
module Registration {
  import opened Wrappers
  import opened UserModel
  import opened Documents
  import opened Text
  import FireBaseServer
  import opened Utf8

  // ---------------------------------------------------------------------
  // Email pattern  [A-Z0-9a-z._%+-]+@[A-Za-z0-9.-]+\.[A-Za-z]{2,64}
  // ---------------------------------------------------------------------

  /** A character of the local part. */
  predicate IsLocalChar(c: char)
  {
    IsAsciiLetter(c) || IsAsciiDigit(c) || c == '.' || c == '_' || c == '%' || c == '+' || c == '-'
  }

  /** A character of the domain part. */
  predicate IsDomainChar(c: char)
  {
    IsAsciiLetter(c) || IsAsciiDigit(c) || c == '.' || c == '-'
  }

  /** The shortest and longest top-level label the pattern admits. */
  const MinTopLevel := 2
  const MaxTopLevel := 64

  /** `s` is L@D.T with the `@` at `at` and the separating `.` at `dot`:
      L non-empty local characters, D non-empty domain characters, T
      2 to 64 ASCII letters. This is the whole-string regular match. */
  predicate EmailSplitAt(s: string, at: int, dot: int)
  {
    0 < at && at + 1 < dot && dot < |s|
    && s[at] == '@' && s[dot] == '.'
    && (forall k :: 0 <= k < at ==> IsLocalChar(s[k]))
    && (forall k :: at < k < dot ==> IsDomainChar(s[k]))
    && MinTopLevel <= |s| - dot - 1 <= MaxTopLevel
    && (forall k :: dot < k < |s| ==> IsAsciiLetter(s[k]))
  }

  /** The pattern, as a specification. */
  ghost predicate MatchesEmailPattern(s: string)
  {
    exists at, dot :: EmailSplitAt(s, at, dot)
  }

  /** The recogniser: the local part ends at the first `@`, and the
      top-level label starts after the last `.` that follows it. */
  function IsValidEmail(s: string): (ok: bool)
  {
    match IndexOf(s, '@')
    case None => false
    case Some(at) =>
      match LastIndexOf(s[at + 1..], '.')
      case None => false
      case Some(k) => EmailSplitAt(s, at, at + 1 + k)
  }

  /** The recogniser accepts exactly the strings the pattern matches. */
  lemma IsValidEmailCorrect(s: string)
    ensures IsValidEmail(s) <==> MatchesEmailPattern(s)
  {
    if MatchesEmailPattern(s) {
      var at, dot :| EmailSplitAt(s, at, dot);
      SplitIsUnique(s, at, dot);
    }
  }

  /** A split, when there is one, is found by the recogniser's searches. */
  lemma SplitIsUnique(s: string, at: int, dot: int)
    requires EmailSplitAt(s, at, dot)
    ensures IndexOf(s, '@') == Some(at)
    ensures LastIndexOf(s[at + 1..], '.') == Some(dot - at - 1)
    ensures IsValidEmail(s)
  {
    FirstAtOfSplit(s, at, dot);
    LastDotOfSplit(s, at, dot);
  }

  /** The `@` of a split is the first one: local characters exclude `@`. */
  lemma FirstAtOfSplit(s: string, at: int, dot: int)
    requires EmailSplitAt(s, at, dot)
    ensures IndexOf(s, '@') == Some(at)
  {
    assert s[at] == '@';
    assert forall k :: 0 <= k < at ==> IsLocalChar(s[k]);
  }

  /** The `.` of a split is the last one after the `@`: the top-level
      label is letters only. */
  lemma LastDotOfSplit(s: string, at: int, dot: int)
    requires EmailSplitAt(s, at, dot)
    ensures LastIndexOf(s[at + 1..], '.') == Some(dot - at - 1)
  {
    var rest := s[at + 1..];
    assert rest[dot - at - 1] == '.';
    assert forall k :: dot - at - 1 < k < |rest| ==> rest[k] == s[at + 1 + k];
  }

  /** An accepted email has exactly one `@` and no whitespace. */
  lemma AcceptedEmailShape(s: string)
    requires IsValidEmail(s)
    ensures exists at :: 0 <= at < |s| && s[at] == '@'
    ensures forall k, m :: 0 <= k < m < |s| ==> !(s[k] == '@' && s[m] == '@')
    ensures forall k :: 0 <= k < |s| ==> !IsSpace(s[k])
  {
    var at := IndexOf(s, '@').value;
    var dot := at + 1 + LastIndexOf(s[at + 1..], '.').value;
    assert EmailSplitAt(s, at, dot);
    forall k | 0 <= k < |s|
      ensures !IsSpace(s[k])
      ensures s[k] == '@' ==> k == at
    {
      if k < at {
        assert IsLocalChar(s[k]);
      } else if at < k < dot {
        assert IsDomainChar(s[k]);
      } else if k > dot {
        assert IsAsciiLetter(s[k]);
      }
    }
  }

  /** In an accepted email the text after the last `.` is 2 to 64 ASCII
      letters. */
  lemma AcceptedEmailTopLevel(s: string)
    requires IsValidEmail(s)
    ensures LastIndexOf(s, '.').Some?
    ensures var dot := LastIndexOf(s, '.').value;
      MinTopLevel <= |s| - dot - 1 <= MaxTopLevel
      && forall k :: dot < k < |s| ==> IsAsciiLetter(s[k])
  {
    var at := IndexOf(s, '@').value;
    var dot := at + 1 + LastIndexOf(s[at + 1..], '.').value;
    assert EmailSplitAt(s, at, dot);
    assert s[dot] == '.';
    assert forall k :: dot < k < |s| ==> s[k] != '.';
  }

  /** A typical address is accepted. */
  lemma AcceptsTypicalAddress()
    ensures IsValidEmail("user@gmail.com")
  {
    assert EmailSplitAt("user@gmail.com", 4, 10);
    SplitIsUnique("user@gmail.com", 4, 10);
  }

  /** A one-letter top-level label is rejected. */
  lemma RejectsShortTopLevel()
    ensures !IsValidEmail("me@x.c")
  {
    var s := "me@x.c";
    assert IndexOf(s, '@') == Some(2) by { assert s[2] == '@'; }
    assert LastIndexOf(s[3..], '.') == Some(1) by { assert s[3..][1] == '.'; }
  }

  // ---------------------------------------------------------------------
  // The form and the Register action
  // ---------------------------------------------------------------------

  /** The form's state. */
  datatype Form = Form(
    firstName: string,
    lastName: string,
    email: string,
    password: string,
    unitNumber: string,
    buildingName: string,
    isEmailInvalid: bool,
    capturedImage: Option<Image>,
    faceVerificationStatus: Option<string>)

  /** A freshly opened form. */
  const EmptyForm := Form("", "", "", "", "", "", false, None, None)

  /** Typing into the email field re-validates it. */
  function EmailChanged(form: Form, newValue: string): (f: Form)
    ensures f.email == newValue
    ensures f.isEmailInvalid <==> !MatchesEmailPattern(newValue)
    ensures f.(email := form.email, isEmailInvalid := form.isEmailInvalid) == form
  {
    IsValidEmailCorrect(newValue);
    form.(email := newValue, isEmailInvalid := !IsValidEmail(newValue))
  }

  /** The Register button's guard as written: it consults the flag, which
      is only set by an edit of the email field. */
  predicate RegisterAllowedAsWritten(form: Form)
  {
    !form.isEmailInvalid
  }

  /** On a freshly opened form the guard lets an empty email through. */
  lemma EmptyEmailRegisters()
    ensures RegisterAllowedAsWritten(EmptyForm) && !MatchesEmailPattern(EmptyForm.email)
  {
    IsValidEmailCorrect("");
  }

  /** The intended guard: the email itself must match the pattern. */
  predicate RegisterAllowed(form: Form)
  {
    IsValidEmail(form.email)
  }

  /** The intended guard admits exactly the valid emails, and agrees with
      the flag once the email has been edited. */
  lemma RegisterAllowedIff(form: Form, newValue: string)
    ensures RegisterAllowed(form) <==> MatchesEmailPattern(form.email)
    ensures RegisterAllowed(EmailChanged(form, newValue)) == RegisterAllowedAsWritten(EmailChanged(form, newValue))
  {
    IsValidEmailCorrect(form.email);
    IsValidEmailCorrect(newValue);
  }

  /** The answer of the duplicate-face query. */
  datatype DuplicateCheck = CheckFailed | DuplicateFound | NoDuplicate

  /** A document written to the users collection. */
  datatype Write = Write(documentID: string, data: map<string, Value>)

  /** A face image put to storage: its path and its JPEG bytes. */
  datatype FaceUpload = FaceUpload(path: string, data: seq<byte>)

  /** What `registerUser` produces: the status message, the record it
      writes (if any), the face image it uploads (if any) and whether it
      dismisses. */
  datatype Registered = Registered(status: string, write: Option<Write>, savedFace: Option<FaceUpload>,
                                   dismissed: bool)

  const NoImageMessage := "Please capture face image first"
  const EncodingFailedMessage := "Face encoding failed. Please try again."
  const CheckFailedMessage := "You already have an account, please sign in."
  const DuplicateMessage := "Face already registered. Cannot register again with the same face."
  const WriteFailedMessage := "Failed to register user"
  const SuccessMessage := "User successfully registered with face data"

  /** An empty text field is a missing value. */
  function NilIfEmpty(s: string): (r: Option<string>)
    ensures r.None? <==> s == ""
    ensures r.Some? ==> r.value == s
  {
    if s == "" then None else Some(s)
  }

  /** The user a registration creates: an individual with the form's
      fields and the generated id. */
  function NewRegistrant(form: Form, newID: string): (u: User)
    ensures u.id == newID && u.role == Individual
    ensures u.email == form.email && u.password == form.password
    ensures u.firstName == form.firstName && u.lastName == form.lastName
    ensures u.unitNumber == NilIfEmpty(form.unitNumber) && u.buildingName == NilIfEmpty(form.buildingName)
  {
    NewUser(newID, form.email, form.password, Individual, form.firstName, form.lastName,
            NilIfEmpty(form.unitNumber), NilIfEmpty(form.buildingName))
  }

  /** `saveFaceToStorage`: the image goes to `faces/<id>.jpg` only when
      it has a JPEG encoding (`jpegData`). */
  function SaveFace(jpegData: Option<seq<byte>>, userID: string): (r: Option<FaceUpload>)
    ensures r.Some? <==> jpegData.Some?
    ensures r.Some? ==> r.value.data == jpegData.value
    ensures r.Some? ==>
              && |r.value.path| == |userID| + 10 && r.value.path[..6] == "faces/"
              && r.value.path[6..|r.value.path| - 4] == userID && r.value.path[|r.value.path| - 4..] == ".jpg"
  {
    match jpegData
    case None => None
    case Some(data) => Some(FaceUpload("faces/" + userID + ".jpg", data))
  }

  /** The registration flow. `encoded` is the encoder's output, `check`
      the duplicate query's answer, `newID` the generated id,
      `writeSucceeded` the store's answer and `jpegData` the JPEG encoding
      of the captured image. */
  function RegisterUser(form: Form, encoded: Option<seq<Point>>, check: DuplicateCheck, newID: string,
                        writeSucceeded: bool, jpegData: Option<seq<byte>>): (r: Registered)
    ensures form.capturedImage.None? ==> r == Registered(NoImageMessage, None, None, false)
    ensures form.capturedImage.Some? && encoded.None? ==>
      r == Registered(EncodingFailedMessage, None, None, false)
    ensures form.capturedImage.Some? && encoded.Some? && check == CheckFailed ==>
      r == Registered(CheckFailedMessage, None, None, false)
    ensures form.capturedImage.Some? && encoded.Some? && check == DuplicateFound ==>
      r == Registered(DuplicateMessage, None, None, false)
    ensures r.write.Some? <==> form.capturedImage.Some? && encoded.Some? && check == NoDuplicate
    ensures r.write.Some? && !writeSucceeded ==> r.status == WriteFailedMessage && r.savedFace.None?
    ensures r.dismissed <==> r.write.Some? && writeSucceeded
    ensures r.savedFace.Some? <==> r.dismissed && jpegData.Some?
    ensures r.dismissed ==> r.status == SuccessMessage
    ensures r.savedFace.Some? ==> r.savedFace == Some(FaceUpload("faces/" + newID + ".jpg", jpegData.value))
    ensures r.write.Some? ==> r.write.value.documentID == newID
  {
    if form.capturedImage.None? then Registered(NoImageMessage, None, None, false)
    else match encoded
      case None => Registered(EncodingFailedMessage, None, None, false)
      case Some(encoding) =>
        match check
        case CheckFailed => Registered(CheckFailedMessage, None, None, false)
        case DuplicateFound => Registered(DuplicateMessage, None, None, false)
        case NoDuplicate =>
          var user := NewRegistrant(form, newID);
          var w := Write(user.id, FireBaseServer.UserDocument(user, PointsValue(encoding)));
          if writeSucceeded then Registered(SuccessMessage, Some(w), SaveFace(jpegData, user.id), true)
          else Registered(WriteFailedMessage, Some(w), None, false)
  }

  /** The Register button with the intended guard: the flow runs only for
      an email that matches the pattern. */
  function RegisterTapped(form: Form, encoded: Option<seq<Point>>, check: DuplicateCheck, newID: string,
                          writeSucceeded: bool, jpegData: Option<seq<byte>>): (r: Option<Registered>)
    ensures r.Some? <==> MatchesEmailPattern(form.email)
    ensures r.Some? ==> r.value == RegisterUser(form, encoded, check, newID, writeSucceeded, jpegData)
  {
    IsValidEmailCorrect(form.email);
    if RegisterAllowed(form) then Some(RegisterUser(form, encoded, check, newID, writeSucceeded, jpegData)) else None
  }

  /** The written record: role "individual", empty unit and building as
      "", the four statuses all false, and the encoding as `{x, y}`
      dictionaries of the same length and order. */
  lemma RegisteredRecord(form: Form, encoding: seq<Point>, newID: string, writeSucceeded: bool,
                         jpegData: Option<seq<byte>>)
    requires form.capturedImage.Some?
    ensures var r := RegisterUser(form, Some(encoding), NoDuplicate, newID, writeSucceeded, jpegData);
      r.write.Some? &&
      var d := r.write.value.data;
      d["role"] == Str("individual")
      && d["unitNumber"] == Str(form.unitNumber) && d["buildingName"] == Str(form.buildingName)
      && d["email"] == Str(form.email) && d["password"] == Str(form.password)
      && AsBoolMap(Some(d["status"])) == Some(FireBaseServer.InitialStatus())
      && AsPoints(Some(d["faceEncoding"])) == Some(encoding)
  {
    BoolMapRoundTrip(FireBaseServer.InitialStatus());
    PointsRoundTrip(encoding);
  }
}

=== FILE: seqs.dfy ===
/** Sequence helpers for Swift's `first(where:)` and `filter`. */
module Seqs {
  import opened Wrappers

  /** `s.firstIndex(where: p)`. */
  function FirstIndex<T>(s: seq<T>, p: T -> bool): (r: Option<nat>)
    ensures r.Some? ==> r.value < |s| && p(s[r.value])
    ensures r.Some? ==> forall j :: 0 <= j < r.value ==> !p(s[j])
    ensures r.None? <==> forall j :: 0 <= j < |s| ==> !p(s[j])
  {
    if s == [] then None
    else if p(s[0]) then Some(0)
    else match FirstIndex(s[1..], p)
      case None => None
      case Some(i) => Some(i + 1)
  }

  /** `s.firstIndex(of: x)`. */
  function IndexOfValue<T(==)>(s: seq<T>, x: T): (r: Option<nat>)
    ensures r.Some? ==> r.value < |s| && s[r.value] == x
    ensures r.Some? ==> forall j :: 0 <= j < r.value ==> s[j] != x
    ensures r.None? <==> x !in s
  {
    if s == [] then None
    else if s[0] == x then Some(0)
    else match IndexOfValue(s[1..], x)
      case None => None
      case Some(i) => Some(i + 1)
  }

  /** Predicates that agree on `s` find the same first index. */
  lemma {:induction false} FirstIndexAgrees<T>(s: seq<T>, p: T -> bool, q: T -> bool)
    requires forall j :: 0 <= j < |s| ==> p(s[j]) == q(s[j])
    ensures FirstIndex(s, p) == FirstIndex(s, q)
  {
    if s != [] && !p(s[0]) {
      FirstIndexAgrees(s[1..], p, q);
    }
  }

  /** `s.filter(p)`. */
  function Filter<T(==,!new)>(s: seq<T>, p: T -> bool): (r: seq<T>)
    ensures |r| <= |s|
    ensures forall x :: x in r <==> x in s && p(x)
  {
    if s == [] then []
    else if p(s[0]) then [s[0]] + Filter(s[1..], p)
    else Filter(s[1..], p)
  }

  /** Filtering keeps every occurrence of a kept element and none of a
      dropped one. */
  lemma {:induction false} FilterCount<T(!new)>(s: seq<T>, p: T -> bool, x: T)
    ensures multiset(Filter(s, p))[x] == if p(x) then multiset(s)[x] else 0
  {
    if s != [] {
      FilterCount(s[1..], p, x);
      assert s == [s[0]] + s[1..];
      assert multiset(s) == multiset([s[0]]) + multiset(s[1..]);
      if p(s[0]) {
        var rest := Filter(s[1..], p);
        assert multiset([s[0]] + rest) == multiset([s[0]]) + multiset(rest);
      }
    }
  }

  /** `sub` is `s` with some elements dropped, the rest in their order. */
  predicate IsSubsequence<T(==)>(sub: seq<T>, s: seq<T>)
  {
    if sub == [] then true
    else if s == [] then false
    else if sub[0] == s[0] then IsSubsequence(sub[1..], s[1..])
    else IsSubsequence(sub, s[1..])
  }

  lemma {:induction false} FilterIsSubsequence<T(!new)>(s: seq<T>, p: T -> bool)
    ensures IsSubsequence(Filter(s, p), s)
  {
    if s != [] {
      FilterIsSubsequence(s[1..], p);
      var rest := Filter(s[1..], p);
      if !p(s[0]) {
        SkipHead(rest, s);
      }
    }
  }

  /** Dropping the head of `s` keeps any subsequence of its tail a
      subsequence of `s`. */
  lemma {:induction false} SkipHead<T>(sub: seq<T>, s: seq<T>)
    requires |s| > 0 && IsSubsequence(sub, s[1..])
    ensures IsSubsequence(sub, s)
    decreases |sub| + |s|
  {
    if sub != [] && sub[0] == s[0] {
      DropFirst(sub, s[1..]);
    }
  }

  /** Dropping the head of a subsequence keeps it a subsequence. */
  lemma {:induction false} DropFirst<T>(sub: seq<T>, t: seq<T>)
    requires sub != [] && IsSubsequence(sub, t)
    ensures IsSubsequence(sub[1..], t)
    decreases |sub| + |t|
  {
    if sub[0] == t[0] {
      if |t| > 0 && sub[1..] != [] {
        SkipHead(sub[1..], t);
      }
    } else {
      DropFirst(sub, t[1..]);
      SkipHead(sub[1..], t);
    }
  }

  /** No element occurs twice. */
  predicate Distinct<T(==)>(s: seq<T>)
  {
    forall i, j :: 0 <= i < j < |s| ==> s[i] != s[j]
  }

  /** Filtering keeps a sequence free of repeats. */
  lemma {:induction false} FilterDistinct<T(!new)>(s: seq<T>, p: T -> bool)
    requires Distinct(s)
    ensures Distinct(Filter(s, p))
  {
    if s != [] {
      var tail := s[1..];
      assert Distinct(tail);
      FilterDistinct(tail, p);
      if p(s[0]) {
        var r := Filter(s, p);
        var rest := Filter(tail, p);
        assert s[0] !in tail;
        assert s[0] !in rest;
        assert r == [s[0]] + rest;
        forall i, j | 0 <= i < j < |r|
          ensures r[i] != r[j]
        {
          if i == 0 {
            assert r[j] == rest[j - 1];
            assert r[j] in rest;
          } else {
            assert r[i] == rest[i - 1] && r[j] == rest[j - 1];
          }
        }
      }
    }
  }

  /** A sequence without repeats has as many elements as its set. */
  lemma {:induction false} DistinctCardinality<T>(s: seq<T>)
    requires Distinct(s)
    ensures |set x | x in s| == |s|
  {
    if s != [] {
      var tail := s[1..];
      assert Distinct(tail);
      DistinctCardinality(tail);
      assert s[0] !in tail;
      assert (set x | x in s) == (set x | x in tail) + {s[0]};
    }
  }
}

=== FILE: similarity.dfy ===
/** The two similarity scorers of the face-recognition manager, over
    embedding vectors. `Float` is modelled as `real`, so rounding,
    overflow and infinities are not modelled; the one NaN the scorers can
    produce (0/0 for two empty vectors) is kept as a distinct score. */
module FaceRecognition {

  /** A scorer result: a number, or the NaN that 0/0 produces. */
  datatype Score = Value(v: real) | NaN

  function Abs(x: real): (r: real)
    ensures r >= 0.0 && (r == x || r == -x)
  {
    if x < 0.0 then -x else x
  }

  /** Σ |a[i] - b[i]|, accumulated from the front as the loop does. */
  function SumAbsDiff(a: seq<real>, b: seq<real>): (r: real)
    requires |a| == |b|
    ensures r >= 0.0
  {
    if |a| == 0 then 0.0
    else SumAbsDiff(a[..|a| - 1], b[..|b| - 1]) + Abs(a[|a| - 1] - b[|b| - 1])
  }

  /** `calculateSimilarity(metrics1:metrics2:)`: vectors of different
      lengths score exactly 0; otherwise the score is one minus the mean
      absolute difference, which is 0/0 (NaN) for two empty vectors. */
  function MeanAbsSimilarity(a: seq<real>, b: seq<real>): (r: Score)
    ensures |a| != |b| ==> r == Value(0.0)
    ensures |a| == |b| == 0 ==> r == NaN
    ensures |a| == |b| > 0 ==> r.Value? && r.v == 1.0 - SumAbsDiff(a, b) / (|a| as real)
    ensures r.Value? ==> r.v <= 1.0
  {
    if |a| != |b| then Value(0.0)
    else if |a| == 0 then NaN
    else Value(1.0 - SumAbsDiff(a, b) / (|a| as real))
  }

  lemma {:induction false} SumAbsDiffSymmetric(a: seq<real>, b: seq<real>)
    requires |a| == |b|
    ensures SumAbsDiff(a, b) == SumAbsDiff(b, a)
  {
    if |a| > 0 {
      SumAbsDiffSymmetric(a[..|a| - 1], b[..|b| - 1]);
    }
  }

  /** The total absolute difference vanishes exactly for equal vectors. */
  lemma {:induction false} SumAbsDiffZero(a: seq<real>, b: seq<real>)
    requires |a| == |b|
    ensures SumAbsDiff(a, b) == 0.0 <==> a == b
  {
    if |a| > 0 {
      var n := |a| - 1;
      SumAbsDiffZero(a[..n], b[..n]);
      assert a == a[..n] + [a[n]] && b == b[..n] + [b[n]];
    }
  }

  /** Mean-absolute similarity is symmetric. */
  lemma MeanAbsSymmetric(a: seq<real>, b: seq<real>)
    ensures MeanAbsSimilarity(a, b) == MeanAbsSimilarity(b, a)
  {
    if |a| == |b| {
      SumAbsDiffSymmetric(a, b);
    }
  }

  /** For equal non-empty lengths the score is 1 exactly for identical
      vectors; in particular every non-empty vector scores 1 against itself. */
  lemma MeanAbsOneIffEqual(a: seq<real>, b: seq<real>)
    requires |a| == |b| > 0
    ensures MeanAbsSimilarity(a, b) == Value(1.0) <==> a == b
  {
    SumAbsDiffZero(a, b);
    var n := |a| as real;
    var s := SumAbsDiff(a, b);
    assert s / n == 0.0 <==> s == 0.0;
  }

  /** The scorer's loop, statement for statement. */
  method CalculateSimilarity(metrics1: seq<real>, metrics2: seq<real>) returns (r: Score)
    ensures r == MeanAbsSimilarity(metrics1, metrics2)
  {
    if |metrics1| != |metrics2| {
      return Value(0.0);
    }
    var totalDistance := 0.0;
    var i := 0;
    while i < |metrics1|
      invariant 0 <= i <= |metrics1|
      invariant totalDistance == SumAbsDiff(metrics1[..i], metrics2[..i])
    {
      var difference := metrics1[i] - metrics2[i];
      assert metrics1[..i + 1][..i] == metrics1[..i];
      assert metrics2[..i + 1][..i] == metrics2[..i];
      totalDistance := totalDistance + Abs(difference);
      i := i + 1;
    }
    assert metrics1[..i] == metrics1 && metrics2[..i] == metrics2;
    if i == 0 {
      return NaN;
    }
    r := Value(1.0 - totalDistance / (|metrics1| as real));
  }

  /** A square-root function: for every non-negative argument it is
      non-negative, squaring it gives the argument back, and it is zero
      only at zero. */
  ghost predicate IsSqrt(sqrt: real -> real)
  {
    forall x :: 0.0 <= x ==> 0.0 <= sqrt(x) && sqrt(x) * sqrt(x) == x && (sqrt(x) == 0.0 <==> x == 0.0)
  }

  /** `zip(a, b).map(*).reduce(0, +)`: only the first min(|a|, |b|) pairs
      contribute. */
  function Dot(a: seq<real>, b: seq<real>): real
  {
    if a == [] || b == [] then 0.0 else a[0] * b[0] + Dot(a[1..], b[1..])
  }

  /** `a.map { $0 * $0 }.reduce(0, +)`, over the whole vector. */
  function SumSquares(a: seq<real>): (r: real)
    ensures r >= 0.0
  {
    if a == [] then 0.0 else a[0] * a[0] + SumSquares(a[1..])
  }

  predicate IsZeroVector(a: seq<real>)
  {
    forall i :: 0 <= i < |a| ==> a[i] == 0.0
  }

  /** `cosineSimilarity(a:b:)`: 0 when either magnitude is zero, else the
      zipped dot product over the product of the full magnitudes. There is
      no length check. */
  function Cosine(sqrt: real -> real, a: seq<real>, b: seq<real>): (r: real)
    requires IsSqrt(sqrt)
    ensures IsZeroVector(a) || IsZeroVector(b) ==> r == 0.0
    ensures sqrt(SumSquares(a)) != 0.0 && sqrt(SumSquares(b)) != 0.0 ==>
      var m := if |a| < |b| then |a| else |b|;
      r == Dot(a[..m], b[..m]) / (sqrt(SumSquares(a)) * sqrt(SumSquares(b)))
  {
    var magnitudeA := sqrt(SumSquares(a));
    var magnitudeB := sqrt(SumSquares(b));
    ZeroMagnitude(sqrt, a);
    ZeroMagnitude(sqrt, b);
    DotZip(a, b);
    if magnitudeA == 0.0 || magnitudeB == 0.0 then 0.0
    else Dot(a, b) / (magnitudeA * magnitudeB)
  }

  /** A sum of squares is zero exactly for the zero vector. */
  lemma {:induction false} SumSquaresZero(a: seq<real>)
    ensures !IsZeroVector(a) ==> SumSquares(a) > 0.0
    ensures IsZeroVector(a) ==> SumSquares(a) == 0.0
  {
    if a != [] {
      var tail := a[1..];
      SumSquaresZero(tail);
      SquarePositive(a[0]);
      assert forall i :: 0 <= i < |tail| ==> tail[i] == a[i + 1];
      if IsZeroVector(a) {
        assert a[0] == 0.0;
        assert IsZeroVector(tail);
      } else if a[0] == 0.0 {
        assert !IsZeroVector(tail);
      } else {
        var x := a[0];
        calc {
          SumSquares(a);
        ==
          x * x + SumSquares(tail);
        >= { assert SumSquares(tail) >= 0.0; }
          x * x;
        > { SquarePositive(x); }
          0.0;
        }
      }
    }
  }

  lemma SquarePositive(x: real)
    ensures x * x >= 0.0
    ensures x != 0.0 ==> x * x > 0.0
  {
    if x < 0.0 {
      NegativeSquare(x);
    } else if x > 0.0 {
      assert x * x > 0.0;
    }
  }

  lemma NegativeSquare(x: real)
    requires x < 0.0
    ensures x * x > 0.0
  {
    var y := -x;
    assert y * y > 0.0;
    assert y * y == x * x;
  }

  /** The magnitude is zero exactly for the zero vector. */
  lemma ZeroMagnitude(sqrt: real -> real, a: seq<real>)
    requires IsSqrt(sqrt)
    ensures sqrt(SumSquares(a)) == 0.0 ==> IsZeroVector(a)
    ensures IsZeroVector(a) ==> sqrt(SumSquares(a)) == 0.0
  {
    SumSquaresZero(a);
  }

  /** The dot product sees only the common prefix of the two vectors. */
  lemma {:induction false} DotZip(a: seq<real>, b: seq<real>)
    ensures var m := if |a| < |b| then |a| else |b|;
      Dot(a, b) == Dot(a[..m], b[..m])
  {
    var m := if |a| < |b| then |a| else |b|;
    if a != [] && b != [] {
      DotZip(a[1..], b[1..]);
      assert a[..m][1..] == a[1..][..m - 1];
      assert b[..m][1..] == b[1..][..m - 1];
    }
  }

  lemma {:induction false} DotSymmetric(a: seq<real>, b: seq<real>)
    ensures Dot(a, b) == Dot(b, a)
  {
    if a != [] && b != [] {
      DotSymmetric(a[1..], b[1..]);
    }
  }

  lemma {:induction false} DotSelf(a: seq<real>)
    ensures Dot(a, a) == SumSquares(a)
  {
    if a != [] {
      DotSelf(a[1..]);
    }
  }

  /** Cosine similarity is symmetric. */
  lemma CosineSymmetric(sqrt: real -> real, a: seq<real>, b: seq<real>)
    requires IsSqrt(sqrt)
    ensures Cosine(sqrt, a, b) == Cosine(sqrt, b, a)
  {
    DotSymmetric(a, b);
    var ma := sqrt(SumSquares(a));
    var mb := sqrt(SumSquares(b));
    assert ma * mb == mb * ma;
  }

  /** Every non-zero vector has cosine similarity 1 with itself. */
  lemma CosineSelf(sqrt: real -> real, a: seq<real>)
    requires IsSqrt(sqrt)
    requires !IsZeroVector(a)
    ensures Cosine(sqrt, a, a) == 1.0
  {
    DotSelf(a);
    SumSquaresZero(a);
    ZeroMagnitude(sqrt, a);
    var s := SumSquares(a);
    var m := sqrt(s);
    assert m * m == s && s != 0.0 && m != 0.0;
    assert Cosine(sqrt, a, a) == Dot(a, a) / (m * m);
    DivBySquareRoot(s, m);
  }

  lemma DivBySquareRoot(s: real, m: real)
    requires s != 0.0 && m * m == s
    ensures s / (m * m) == 1.0
  {
  }
}

=== FILE: tasks.dfy ===
/** A client's task list and the local reminders scheduled for it. The
    notification centre is a map from request identifier to request;
    adding a request under an identifier that is already pending
    replaces it. */
module Tasks {
  import opened Wrappers
  import opened UserModel
  import opened Documents
  import opened Seqs

  // ---------------------------------------------------------------------
  // Reminders
  // ---------------------------------------------------------------------

  /** The hour and minute taken from the chosen date; never inspected. */
  datatype TimeOfDay = TimeOfDay(hour: int, minute: int)

  /** A calendar trigger: the time, an optional weekday (1 = Sunday), and
      whether it repeats. */
  datatype Trigger = Trigger(time: TimeOfDay, weekday: Option<int>, repeats: bool)

  /** A pending request; its body is the task name. */
  datatype Request = Request(body: string, trigger: Trigger)

  type Center = map<string, Request>

  const WeekdayNames: seq<string> := ["Sun", "Mon", "Tue", "Wed", "Thu", "Fri", "Sat"]

  /** The weekday number of a day abbreviation; `None` is the failed
      force unwrap, which stops the app. */
  function Weekday(day: string): (r: Option<int>)
    ensures r.Some? <==> day in WeekdayNames
    ensures r.Some? ==> 1 <= r.value <= 7 && WeekdayNames[r.value - 1] == day
  {
    match IndexOfValue(WeekdayNames, day)
    case None => None
    case Some(i) => Some(i + 1)
  }

  /** The identifier of the reminder for one repeat day. */
  function DayIdentifier(taskName: string, day: string): (id: string)
    ensures id != taskName
  {
    taskName + "_" + day
  }

  /** The identifiers of the per-day reminders for `days`. */
  function DayIdentifiers(taskName: string, days: seq<string>): set<string>
  {
    set d | d in days :: DayIdentifier(taskName, d)
  }

  /** The identifiers a schedule call creates. */
  function ScheduledIdentifiers(taskName: string, repeatDays: seq<string>): (ids: set<string>)
    ensures repeatDays == [] ==> ids == {taskName}
    ensures repeatDays != [] ==> forall id :: id in ids <==> exists d :: d in repeatDays && id == DayIdentifier(taskName, d)
  {
    if repeatDays == [] then {taskName}
    else DayIdentifiers(taskName, repeatDays)
  }

  /** The request a repeat day's reminder holds. */
  function DayRequest(taskName: string, time: TimeOfDay, day: string): Request
  {
    Request(taskName, Trigger(time, Weekday(day), true))
  }

  /** What adding the per-day reminders for `days` to `center` gives. */
  predicate AddsDays(center: Center, taskName: string, time: TimeOfDay, days: seq<string>, r: Center)
  {
    && r.Keys == center.Keys + DayIdentifiers(taskName, days)
    && (forall d :: d in days ==> r[DayIdentifier(taskName, d)] == DayRequest(taskName, time, d))
    && (forall id :: id in center && id !in DayIdentifiers(taskName, days) ==> r[id] == center[id])
  }

  /** One repeating reminder per day, in order; `None` when a day is not
      one of the seven abbreviations. */
  function AddDayRequests(center: Center, taskName: string, time: TimeOfDay, days: seq<string>): (r: Option<Center>)
    ensures r.Some? <==> forall d :: d in days ==> d in WeekdayNames
    ensures r.Some? ==> AddsDays(center, taskName, time, days, r.value)
    decreases |days|
  {
    if days == [] then Some(center)
    else match Weekday(days[0])
      case None => None
      case Some(weekday) =>
        var added := center[DayIdentifier(taskName, days[0]) := DayRequest(taskName, time, days[0])];
        var r := AddDayRequests(added, taskName, time, days[1..]);
        assert forall d :: d in days <==> d == days[0] || d in days[1..];
        if r.Some? then
          AddDayStep(center, taskName, time, days, r.value);
          r
        else r
  }

  /** Adding the first day and then the rest adds them all. */
  lemma AddDayStep(center: Center, taskName: string, time: TimeOfDay, days: seq<string>, r: Center)
    requires days != []
    requires AddsDays(center[DayIdentifier(taskName, days[0]) := DayRequest(taskName, time, days[0])],
                      taskName, time, days[1..], r)
    ensures AddsDays(center, taskName, time, days, r)
  {
    DayIdentifiersCons(taskName, days);
    forall d | d in days
      ensures r[DayIdentifier(taskName, d)] == DayRequest(taskName, time, d)
    {
      FirstDayStep(center, taskName, time, days, r, d);
    }
  }

  /** The first day's reminder survives the rest unless a later day
      repeats it, with the same request. */
  lemma FirstDayStep(center: Center, taskName: string, time: TimeOfDay, days: seq<string>, r: Center, d: string)
    requires days != [] && d in days
    requires AddsDays(center[DayIdentifier(taskName, days[0]) := DayRequest(taskName, time, days[0])],
                      taskName, time, days[1..], r)
    ensures r[DayIdentifier(taskName, d)] == DayRequest(taskName, time, d)
  {
    if d !in days[1..] {
      DayIdentifierIn(taskName, d, days[1..]);
    }
  }

  /** The identifiers of a non-empty day list: the first day's and the rest's. */
  lemma DayIdentifiersCons(taskName: string, days: seq<string>)
    requires days != []
    ensures DayIdentifiers(taskName, days) == {DayIdentifier(taskName, days[0])} + DayIdentifiers(taskName, days[1..])
  {
    assert forall d :: d in days <==> d == days[0] || d in days[1..];
  }

  /** A day's identifier is among those of `days` exactly when the day is. */
  lemma DayIdentifierIn(taskName: string, day: string, days: seq<string>)
    ensures DayIdentifier(taskName, day) in DayIdentifiers(taskName, days) <==> day in days
  {
    DayIdentifiersInjective(taskName);
  }

  /** Different days give different identifiers. */
  lemma DayIdentifiersInjective(taskName: string)
    ensures forall d1, d2 :: DayIdentifier(taskName, d1) == DayIdentifier(taskName, d2) ==> d1 == d2
  {
    forall d1, d2 | DayIdentifier(taskName, d1) == DayIdentifier(taskName, d2)
      ensures d1 == d2
    {
      var n := |taskName| + 1;
      assert d1 == DayIdentifier(taskName, d1)[n..];
      assert d2 == DayIdentifier(taskName, d2)[n..];
    }
  }

  /** `scheduleNotification(taskName:taskDate:repeatDays:)`: one
      non-repeating request under the task name when no day is chosen,
      otherwise one weekly request per day. */
  function ScheduleNotification(center: Center, taskName: string, time: TimeOfDay,
                                repeatDays: seq<string>): (r: Option<Center>)
    ensures repeatDays == [] ==> r == Some(center[taskName := Request(taskName, Trigger(time, None, false))])
    ensures r.Some? <==> forall d :: d in repeatDays ==> d in WeekdayNames
    ensures r.Some? && repeatDays != [] ==> AddsDays(center, taskName, time, repeatDays, r.value)
  {
    if repeatDays == [] then Some(center[taskName := Request(taskName, Trigger(time, None, false))])
    else AddDayRequests(center, taskName, time, repeatDays)
  }

  /** After a successful schedule the pending identifiers are the old
      ones and the scheduled ones; each chosen day has a weekly request
      for the task at the chosen time on that day's weekday number; every
      other request is as it was. */
  lemma ScheduledReminders(center: Center, taskName: string, time: TimeOfDay, repeatDays: seq<string>)
    requires ScheduleNotification(center, taskName, time, repeatDays).Some?
    ensures var r := ScheduleNotification(center, taskName, time, repeatDays).value;
      && r.Keys == center.Keys + ScheduledIdentifiers(taskName, repeatDays)
      && (forall id :: id in center && id !in ScheduledIdentifiers(taskName, repeatDays) ==> r[id] == center[id])
    ensures var r := ScheduleNotification(center, taskName, time, repeatDays).value;
      forall d :: d in repeatDays ==>
        && DayIdentifier(taskName, d) in r
        && r[DayIdentifier(taskName, d)].body == taskName
        && r[DayIdentifier(taskName, d)].trigger.repeats
        && r[DayIdentifier(taskName, d)].trigger.time == time
        && r[DayIdentifier(taskName, d)].trigger.weekday.Some?
        && 1 <= r[DayIdentifier(taskName, d)].trigger.weekday.value <= 7
        && WeekdayNames[r[DayIdentifier(taskName, d)].trigger.weekday.value - 1] == d
  {
    var r := ScheduleNotification(center, taskName, time, repeatDays).value;
    forall d | d in repeatDays
      ensures DayIdentifier(taskName, d) in r
    {
      assert DayIdentifier(taskName, d) in DayIdentifiers(taskName, repeatDays);
    }
  }

  /** `removeNotification(for:)`: withdraws the request whose identifier
      is the task name, and nothing else. */
  function RemoveNotification(center: Center, taskName: string): (r: Center)
    ensures taskName !in r
    ensures forall id :: id in r <==> id in center && id != taskName
    ensures forall id :: id in r ==> r[id] == center[id]
  {
    center - {taskName}
  }

  /** A weekly task leaves every per-day reminder pending after its
      removal. */
  lemma WeeklyRemindersSurviveRemoval(center: Center, taskName: string, time: TimeOfDay,
                                      repeatDays: seq<string>)
    requires repeatDays != []
    requires ScheduleNotification(center, taskName, time, repeatDays).Some?
    ensures var after := RemoveNotification(ScheduleNotification(center, taskName, time, repeatDays).value, taskName);
      forall d :: d in repeatDays ==> DayIdentifier(taskName, d) in after
  {
    ScheduledReminders(center, taskName, time, repeatDays);
  }

  /** The intended removal: every identifier the task was scheduled
      under. */
  function RemoveTaskNotifications(center: Center, taskName: string, repeatDays: seq<string>): (r: Center)
    ensures forall id :: id in r <==> id in center && id !in ScheduledIdentifiers(taskName, repeatDays)
    ensures forall id :: id in r ==> r[id] == center[id]
  {
    center - ScheduledIdentifiers(taskName, repeatDays)
  }

  /** Scheduling and then removing with the intended removal leaves no
      reminder for the task and every other pending request as it was. */
  lemma ScheduleThenRemoveRestores(center: Center, taskName: string, time: TimeOfDay, repeatDays: seq<string>)
    requires ScheduleNotification(center, taskName, time, repeatDays).Some?
    ensures var after := RemoveTaskNotifications(
              ScheduleNotification(center, taskName, time, repeatDays).value, taskName, repeatDays);
      after == center - ScheduledIdentifiers(taskName, repeatDays)
  {
    ScheduledReminders(center, taskName, time, repeatDays);
  }

  // ---------------------------------------------------------------------
  // Task rows
  // ---------------------------------------------------------------------

  /** One row of the list: type, description, date (seconds), repeat
      days, whether the reminder is disabled, and the document ID. */
  datatype TaskRow = TaskRow(taskType: string, description: string, date: int, repeatDays: seq<string>,
                             disabled: bool, documentID: Option<string>)

  /** A string array as stored. */
  function StringArrayValue(items: seq<string>): (v: Value)
    ensures AsStringArray(Some(v)) == Some(items)
  {
    var v := Arr(seq(|items|, i requires 0 <= i < |items| => Str(items[i])));
    assert AsStringArray(Some(v)).value == items;
    v
  }

  /** The document `saveTaskToFirestore()` adds; the task starts active. */
  function TaskDocument(taskType: string, description: string, date: int, repeatDays: seq<string>,
                        userID: string): (d: map<string, Value>)
    ensures d.Keys == {"type", "description", "date", "repeatDays", "isActive", "userID"}
    ensures d["isActive"] == Bool(true) && d["userID"] == Str(userID)
  {
    map["type" := Str(taskType), "description" := Str(description), "date" := Timestamp(date),
        "repeatDays" := StringArrayValue(repeatDays), "isActive" := Bool(true), "userID" := Str(userID)]
  }

  /** The row read back from a task document. Missing strings read as "",
      missing days as none, a missing date as `now`, and a missing
      `isActive` as active. */
  function TaskFromDocument(doc: Document, now: int): (row: TaskRow)
    ensures row.taskType == AsString(Get(doc.data, "type")).GetOr("")
    ensures row.description == AsString(Get(doc.data, "description")).GetOr("")
    ensures row.date == AsTimestamp(Get(doc.data, "date")).GetOr(now)
    ensures row.repeatDays == AsStringArray(Get(doc.data, "repeatDays")).GetOr([])
    ensures row.disabled <==> AsBool(Get(doc.data, "isActive")) == Some(false)
    ensures row.documentID == Some(doc.documentID)
  {
    TaskRow(AsString(Get(doc.data, "type")).GetOr(""),
            AsString(Get(doc.data, "description")).GetOr(""),
            AsTimestamp(Get(doc.data, "date")).GetOr(now),
            AsStringArray(Get(doc.data, "repeatDays")).GetOr([]),
            !AsBool(Get(doc.data, "isActive")).GetOr(true),
            Some(doc.documentID))
  }

  /** A saved task reads back as an enabled row with the same fields. */
  lemma SaveThenFetchTask(taskType: string, description: string, date: int, repeatDays: seq<string>,
                          userID: string, documentID: string, now: int)
    ensures TaskFromDocument(Document(documentID, TaskDocument(taskType, description, date, repeatDays, userID)), now)
         == TaskRow(taskType, description, date, repeatDays, false, Some(documentID))
  {
  }

  /** The rows after a fetch: an error keeps the current rows, no
      snapshot gives none, otherwise one row per document in order. */
  function FetchTasks(current: seq<TaskRow>, result: QueryResult, now: int): (rows: seq<TaskRow>)
    ensures result.QueryFailed? ==> rows == current
    ensures result.NoSnapshot? ==> rows == []
    ensures result.Snapshot? ==> |rows| == |result.docs|
    ensures result.Snapshot? ==> forall i :: 0 <= i < |rows| ==> rows[i] == TaskFromDocument(result.docs[i], now)
  {
    match result
    case QueryFailed(_) => current
    case NoSnapshot => []
    case Snapshot(docs) => seq(|docs|, i requires 0 <= i < |docs| => TaskFromDocument(docs[i], now))
  }

  /** The Enable/Disable button: flips only that row's flag. */
  function ToggleTask(rows: seq<TaskRow>, index: nat): (r: seq<TaskRow>)
    requires index < |rows|
    ensures |r| == |rows|
    ensures r[index].disabled == !rows[index].disabled
    ensures r[index] == rows[index].(disabled := r[index].disabled)
    ensures forall j :: 0 <= j < |rows| && j != index ==> r[j] == rows[j]
  {
    rows[index := rows[index].(disabled := !rows[index].disabled)]
  }

  /** Toggling a row twice restores the list. */
  lemma ToggleTwice(rows: seq<TaskRow>, index: nat)
    requires index < |rows|
    ensures ToggleTask(ToggleTask(rows, index), index) == rows
  {
  }

  /** What the Delete button does. */
  datatype Deletion = Deletion(rows: seq<TaskRow>, center: Center, deletedDocument: Option<string>)

  /** The Delete button: deletes the row's document (when it has one),
      withdraws the reminder named after the description, and removes
      the row. */
  function DeleteTask(rows: seq<TaskRow>, index: nat, center: Center): (r: Deletion)
    requires index < |rows|
    ensures |r.rows| == |rows| - 1
    ensures forall j :: 0 <= j < index ==> r.rows[j] == rows[j]
    ensures forall j :: index <= j < |r.rows| ==> r.rows[j] == rows[j + 1]
    ensures r.deletedDocument == rows[index].documentID
    ensures r.center == RemoveNotification(center, rows[index].description)
  {
    Deletion(rows[..index] + rows[index + 1..], RemoveNotification(center, rows[index].description),
             rows[index].documentID)
  }

  /** Deleting a row keeps every other row, in order. */
  lemma DeleteKeepsOthers(rows: seq<TaskRow>, index: nat, center: Center)
    requires index < |rows|
    ensures DeleteTask(rows, index, center).rows == rows[..index] + rows[index + 1..]
    ensures multiset(DeleteTask(rows, index, center).rows) + multiset{rows[index]} == multiset(rows)
  {
    assert rows == rows[..index] + [rows[index]] + rows[index + 1..];
  }

  /** What Add Task does. */
  datatype Addition = Addition(saved: Option<map<string, Value>>, center: Option<Center>)

  /** The Add Task button: nothing for an empty task; otherwise the task
      is saved (only when the user has a document ID) and its reminders
      are scheduled. A `None` centre is the crash on an unknown day. The
      view's repeat-day list starts empty and nothing in it assigns to it,
      so the view always passes `[]` as `repeatDays`; the parameter keeps
      the weekly path of the scheduler reachable. */
  function AddTask(user: User, newTask: string, taskType: string, date: int, time: TimeOfDay,
                   repeatDays: seq<string>, center: Center): (r: Addition)
    ensures newTask == "" ==> r == Addition(None, Some(center))
    ensures newTask != "" ==> r.center == ScheduleNotification(center, newTask, time, repeatDays)
    ensures r.saved.Some? <==> newTask != "" && user.firestoreDocumentID != ""
    ensures r.saved.Some? ==> r.saved.value == TaskDocument(taskType, newTask, date, repeatDays, user.firestoreDocumentID)
  {
    if newTask == "" then Addition(None, Some(center))
    else
      var saved := if user.firestoreDocumentID == "" then None
                   else Some(TaskDocument(taskType, newTask, date, repeatDays, user.firestoreDocumentID));
      Addition(saved, ScheduleNotification(center, newTask, time, repeatDays))
  }
}

=== FILE: text.dfy ===
/** String helpers shared by the views: ASCII case folding (the model's
    stand-in for Foundation's locale-aware case-insensitive operations),
    code-point lexicographic order, substring search, and join/split on a
    separator. */
module Text {
  import opened Wrappers

  /** ASCII lower-casing of one character; all other characters are kept. */
  function LowerChar(c: char): (r: char)
    ensures 'A' <= c <= 'Z' ==> r as int == c as int + 32
    ensures !('A' <= c <= 'Z') ==> r == c
  {
    if 'A' <= c <= 'Z' then (c as int + 32) as char else c
  }

  function Lower(s: string): (r: string)
    ensures |r| == |s|
    ensures forall i :: 0 <= i < |s| ==> r[i] == LowerChar(s[i])
  {
    seq(|s|, i requires 0 <= i < |s| => LowerChar(s[i]))
  }

  lemma LowerAppend(a: string, b: string)
    ensures Lower(a + b) == Lower(a) + Lower(b)
  {
  }

  /** Folding twice is folding once. */
  lemma LowerIdempotent(s: string)
    ensures Lower(Lower(s)) == Lower(s)
  {
  }

  /** `a` sorts strictly before `b` comparing code points, a proper prefix first. */
  predicate LexLess(a: string, b: string)
  {
    if b == [] then false
    else if a == [] then true
    else if a[0] != b[0] then a[0] < b[0]
    else LexLess(a[1..], b[1..])
  }

  lemma {:induction false} LexLessIrreflexive(a: string)
    ensures !LexLess(a, a)
  {
    if a != [] {
      LexLessIrreflexive(a[1..]);
    }
  }

  lemma {:induction false} LexLessTransitive(a: string, b: string, c: string)
    requires LexLess(a, b) && LexLess(b, c)
    ensures LexLess(a, c)
  {
    if a != [] && a[0] == b[0] && b[0] == c[0] {
      LexLessTransitive(a[1..], b[1..], c[1..]);
    }
  }

  lemma {:induction false} LexLessTrichotomy(a: string, b: string)
    ensures a == b || LexLess(a, b) || LexLess(b, a)
  {
    if a != [] && b != [] && a[0] == b[0] {
      LexLessTrichotomy(a[1..], b[1..]);
      if a[1..] == b[1..] {
        assert a == [a[0]] + a[1..] && b == [b[0]] + b[1..];
      }
    }
  }

  /** "Not after": the weak order induced by `LexLess` is transitive. */
  lemma LexNotLessTransitive(a: string, b: string, c: string)
    requires !LexLess(b, a) && !LexLess(c, b)
    ensures !LexLess(c, a)
  {
    if LexLess(c, a) {
      LexLessTrichotomy(a, b);
      if a != b {
        LexLessTransitive(c, a, b);
      }
    }
  }

  /** `sub` occurs in `s` starting at index `i`. */
  predicate OccursAt(s: string, sub: string, i: int)
  {
    0 <= i && i + |sub| <= |s| && s[i..i + |sub|] == sub
  }

  /** `sub` occurs in `s` as a contiguous substring. */
  predicate Contains(s: string, sub: string)
    decreases |s|
  {
    if sub <= s then true
    else if s == [] then false
    else Contains(s[1..], sub)
  }

  lemma OccursAtShift(s: string, sub: string, i: int)
    requires |s| > 0 && i >= 1
    ensures OccursAt(s, sub, i) <==> OccursAt(s[1..], sub, i - 1)
  {
    if i + |sub| <= |s| {
      assert s[i..i + |sub|] == s[1..][i - 1..i - 1 + |sub|];
    }
  }

  lemma {:induction false} ContainsAt(s: string, sub: string)
    ensures Contains(s, sub) <==> exists i :: OccursAt(s, sub, i)
    decreases |s|
  {
    if sub <= s {
      assert OccursAt(s, sub, 0);
    } else if s == [] {
    } else {
      ContainsAt(s[1..], sub);
      if Contains(s[1..], sub) {
        var i :| OccursAt(s[1..], sub, i);
        OccursAtShift(s, sub, i + 1);
      } else {
        forall i | OccursAt(s, sub, i)
          ensures false
        {
          OccursAtShift(s, sub, i);
        }
      }
    }
  }

  /** Swift's `parts.joined(separator: sep)`. */
  function Join(parts: seq<string>, sep: string): string
  {
    if |parts| == 0 then ""
    else if |parts| == 1 then parts[0]
    else parts[0] + sep + Join(parts[1..], sep)
  }

  /** Index of the first occurrence of `sep` in `s`. */
  function FindSep(s: string, sep: string): (r: Option<nat>)
    requires |sep| > 0
    ensures r.Some? ==> OccursAt(s, sep, r.value)
    ensures r.Some? ==> forall j :: 0 <= j < r.value ==> !OccursAt(s, sep, j)
    ensures r.None? ==> !Contains(s, sep)
    ensures r.None? ==> forall j :: !OccursAt(s, sep, j)
    decreases |s|
  {
    if sep <= s then
      assert OccursAt(s, sep, 0);
      Some(0)
    else if s == [] then
      ContainsAt(s, sep);
      None
    else
      match FindSep(s[1..], sep)
      case None =>
        ContainsAt(s, sep);
        None
      case Some(i) =>
        FindSepStep(s, sep, i);
        Some(i + 1)
  }

  lemma FindSepStep(s: string, sep: string, i: nat)
    requires |s| > 0 && !(sep <= s)
    requires OccursAt(s[1..], sep, i)
    requires forall j :: 0 <= j < i ==> !OccursAt(s[1..], sep, j)
    ensures OccursAt(s, sep, i + 1)
    ensures forall j :: 0 <= j < i + 1 ==> !OccursAt(s, sep, j)
  {
    OccursAtShift(s, sep, i + 1);
    forall j | 1 <= j < i + 1
      ensures !OccursAt(s, sep, j)
    {
      OccursAtShift(s, sep, j);
    }
  }

  /** Splits `s` at every occurrence of `sep`, scanning left to right. */
  function Split(s: string, sep: string): seq<string>
    requires |sep| > 0
    decreases |s|
  {
    match FindSep(s, sep)
    case None => [s]
    case Some(i) => [s[..i]] + Split(s[i + |sep|..], sep)
  }

  const ListSeparator: string := ", "

  /** Joining on ", " and splitting again gives the parts back, provided no
      part itself contains ", ". */
  lemma {:induction false} SplitJoin(parts: seq<string>)
    requires |parts| > 0
    requires forall k :: 0 <= k < |parts| ==> !Contains(parts[k], ListSeparator)
    ensures Split(Join(parts, ListSeparator), ListSeparator) == parts
  {
    var sep := ListSeparator;
    if |parts| == 1 {
      ContainsAt(parts[0], sep);
      assert FindSep(parts[0], sep).None?;
    } else {
      var p := parts[0];
      var rest := Join(parts[1..], sep);
      var s := p + sep + rest;
      assert s == Join(parts, sep);
      assert OccursAt(s, sep, |p|);
      FirstSeparatorAfterPart(p, rest);
      assert s[..|p|] == p;
      assert s[|p| + 2..] == rest;
      SplitJoin(parts[1..]);
      assert Split(s, sep) == [p] + Split(rest, sep);
    }
  }

  /** In `p + ", " + rest`, the first ", " is the one after `p` when `p`
      has none: no occurrence can straddle the end of `p`, because the
      separator's second character is not its first. */
  lemma FirstSeparatorAfterPart(p: string, rest: string)
    requires !Contains(p, ListSeparator)
    ensures FindSep(p + ListSeparator + rest, ListSeparator) == Some(|p|)
  {
    var sep := ListSeparator;
    var s := p + sep + rest;
    assert OccursAt(s, sep, |p|);
    ContainsAt(p, sep);
    forall j | 0 <= j < |p|
      ensures !OccursAt(s, sep, j)
    {
      if j + 2 <= |p| {
        assert s[j..j + 2] == p[j..j + 2];
        assert !OccursAt(p, sep, j);
      } else {
        assert s[j + 1] == ',';
      }
    }
  }

  /** Index of the first occurrence of `c` in `s`. */
  function IndexOf(s: string, c: char): (r: Option<nat>)
    ensures r.Some? ==> r.value < |s| && s[r.value] == c
    ensures r.Some? ==> forall j :: 0 <= j < r.value ==> s[j] != c
    ensures r.None? ==> c !in s
  {
    if s == [] then None
    else if s[0] == c then Some(0)
    else match IndexOf(s[1..], c)
      case None => None
      case Some(i) => Some(i + 1)
  }

  /** Index of the last occurrence of `c` in `s`. */
  function LastIndexOf(s: string, c: char): (r: Option<nat>)
    ensures r.Some? ==> r.value < |s| && s[r.value] == c
    ensures r.Some? ==> forall j :: r.value < j < |s| ==> s[j] != c
    ensures r.None? ==> c !in s
  {
    if s == [] then None
    else if s[|s| - 1] == c then Some(|s| - 1)
    else LastIndexOf(s[..|s| - 1], c)
  }

  /** Whitespace as JavaScript's `\s` class defines it (ECMAScript
      WhiteSpace and LineTerminator). */
  predicate IsSpace(c: char)
  {
    || c == ' ' || c == '\t' || c == '\n' || c == '\r'
    || c == '\U{000B}' || c == '\U{000C}' || c == '\U{00A0}' || c == '\U{1680}'
    || ('\U{2000}' <= c <= '\U{200A}')
    || c == '\U{2028}' || c == '\U{2029}' || c == '\U{202F}' || c == '\U{205F}'
    || c == '\U{3000}' || c == '\U{FEFF}'
  }

  predicate IsAsciiLetter(c: char)
  {
    'A' <= c <= 'Z' || 'a' <= c <= 'z'
  }

  predicate IsAsciiDigit(c: char)
  {
    '0' <= c <= '9'
  }
}

=== FILE: upload_server.dfy ===
/** The photo server's storage naming: the name a received file is saved
    under, built from Node's POSIX `path.basename` and `path.extname`, and
    the upload route's answer. */
module UploadServer {
  import opened Wrappers
  import opened Text

  // ---------------------------------------------------------------------
  // path.basename / path.extname (POSIX)
  // ---------------------------------------------------------------------

  /** The path without its trailing slashes. */
  function StripTrailingSlashes(p: string): (r: string)
    ensures r <= p
    ensures r == [] || r[|r| - 1] != '/'
    ensures '/' !in p ==> r == p
  {
    if p != [] && p[|p| - 1] == '/' then StripTrailingSlashes(p[..|p| - 1]) else p
  }

  /** The last path segment, ignoring trailing slashes; "" for a path of
      slashes only. */
  function Segment(p: string): (seg: string)
    ensures '/' !in seg
    ensures '/' !in p ==> seg == p
  {
    var q := StripTrailingSlashes(p);
    match LastIndexOf(q, '/')
    case None => q
    case Some(i) => q[i + 1..]
  }

  /** `path.extname` of a segment: from its last `.` to the end, or ""
      when there is no `.`, when the only candidate is the leading
      character, or for "..". */
  function ExtName(seg: string): (ext: string)
    ensures ext == [] || (|ext| < |seg| && ext == seg[|seg| - |ext|..] && ext[0] == '.')
    ensures forall k :: 0 < k < |ext| ==> ext[k] != '.'
    ensures ext == [] && '.' in seg ==> seg == ".." || LastIndexOf(seg, '.') == Some(0)
  {
    match LastIndexOf(seg, '.')
    case None => ""
    case Some(d) =>
      if d == 0 || seg == ".." then ""
      else
        seg[d..]
  }

  /** `path.basename(p, suffix)`: the last segment, minus `suffix` when it
      is a proper suffix of the segment. */
  function Basename(p: string, suffix: string): (r: string)
    ensures var seg := Segment(p);
      if 0 < |suffix| < |seg| && seg[|seg| - |suffix|..] == suffix
      then r + suffix == seg else r == seg
  {
    var seg := Segment(p);
    if 0 < |suffix| < |seg| && seg[|seg| - |suffix|..] == suffix then
      assert seg == seg[..|seg| - |suffix|] + suffix;
      seg[..|seg| - |suffix|]
    else seg
  }

  // ---------------------------------------------------------------------
  // replace(/\s+/g, '_')
  // ---------------------------------------------------------------------

  /** The text after a leading whitespace run. */
  function DropSpaces(s: string): (r: string)
    ensures |r| <= |s| && r == s[|s| - |r|..]
    ensures r == [] || !IsSpace(r[0])
    ensures s != [] && IsSpace(s[0]) ==> |r| < |s|
    ensures forall k :: 0 <= k < |s| - |r| ==> IsSpace(s[k])
  {
    if s != [] && IsSpace(s[0]) then DropSpaces(s[1..]) else s
  }

  /** Every maximal whitespace run replaced by a single `_`. */
  function CollapseSpaces(s: string): (r: string)
    ensures forall k :: 0 <= k < |r| ==> !IsSpace(r[k])
    ensures |r| <= |s|
    ensures s != [] ==> r != []
    decreases |s|
  {
    if s == [] then []
    else if IsSpace(s[0]) then "_" + CollapseSpaces(DropSpaces(s))
    else [s[0]] + CollapseSpaces(s[1..])
  }

  /** Collapsing keeps every character other than `_` and whitespace, and
      adds none. */
  lemma {:induction false} CollapseKeepsText(s: string)
    ensures forall c :: c != '_' && !IsSpace(c) ==> (c in CollapseSpaces(s) <==> c in s)
    decreases |s|
  {
    if s == [] {
    } else if IsSpace(s[0]) {
      var rest := DropSpaces(s);
      CollapseKeepsText(rest);
      DropSpacesKeepsText(s);
    } else {
      CollapseKeepsText(s[1..]);
      assert forall c :: c in s <==> c == s[0] || c in s[1..];
    }
  }

  /** Dropping a leading whitespace run keeps every other character. */
  lemma {:induction false} DropSpacesKeepsText(s: string)
    ensures forall c :: !IsSpace(c) ==> (c in DropSpaces(s) <==> c in s)
  {
    if s != [] && IsSpace(s[0]) {
      DropSpacesKeepsText(s[1..]);
      assert forall c :: c in s <==> c == s[0] || c in s[1..];
    }
  }

  /** A whitespace run in front of text that does not start with
      whitespace becomes one `_`. */
  lemma CollapseRun(run: string, t: string)
    requires |run| > 0 && forall k :: 0 <= k < |run| ==> IsSpace(run[k])
    requires t == [] || !IsSpace(t[0])
    ensures CollapseSpaces(run + t) == "_" + CollapseSpaces(t)
  {
    DropRun(run, t);
  }

  lemma {:induction false} DropRun(run: string, t: string)
    requires forall k :: 0 <= k < |run| ==> IsSpace(run[k])
    requires t == [] || !IsSpace(t[0])
    ensures DropSpaces(run + t) == t
  {
    if run == [] {
      assert run + t == t;
    } else {
      assert (run + t)[1..] == run[1..] + t;
      DropRun(run[1..], t);
    }
  }

  /** Text without whitespace is left as it is. */
  lemma {:induction false} CollapseNoSpaces(s: string)
    requires forall k :: 0 <= k < |s| ==> !IsSpace(s[k])
    ensures CollapseSpaces(s) == s
  {
    if s != [] {
      CollapseNoSpaces(s[1..]);
    }
  }

  /** The first character survives when it is not whitespace, and a
      collapsed text is "." only for ".". */
  lemma CollapseHead(s: string)
    requires s != []
    ensures IsSpace(s[0]) ==> CollapseSpaces(s)[0] == '_'
    ensures !IsSpace(s[0]) ==> CollapseSpaces(s) == [s[0]] + CollapseSpaces(s[1..])
    ensures CollapseSpaces(s) == "." ==> s == "."
  {
    if !IsSpace(s[0]) && CollapseSpaces(s) == "." {
      assert CollapseSpaces(s[1..]) == [];
    }
  }

  // ---------------------------------------------------------------------
  // The storage name and the upload route
  // ---------------------------------------------------------------------

  /** The multer `filename` callback: the base name with whitespace runs
      collapsed, followed by the original extension. */
  function StoredFilename(originalname: string): (r: string)
    ensures var ext := ExtName(Segment(originalname));
      |ext| <= |r| && r[|r| - |ext|..] == ext
      && CollapseSpaces(Basename(originalname, ext)) + ext == r
    ensures '/' !in r
  {
    var ext := ExtName(Segment(originalname));
    var safeFilename := CollapseSpaces(Basename(originalname, ext));
    CollapseKeepsText(Basename(originalname, ext));
    assert safeFilename + ext == (safeFilename + ext)[..|safeFilename|] + ext;
    safeFilename + ext
  }

  /** The stem of the stored name has no whitespace. */
  lemma StoredStemHasNoSpaces(originalname: string)
    ensures var r := StoredFilename(originalname);
      var ext := ExtName(Segment(originalname));
      forall k :: 0 <= k < |r| - |ext| ==> !IsSpace(r[k])
  {
    var ext := ExtName(Segment(originalname));
    var stem := CollapseSpaces(Basename(originalname, ext));
    assert forall k :: 0 <= k < |stem| ==> (stem + ext)[k] == stem[k];
  }

  /** A name with no whitespace and no directory part is stored as is. */
  lemma StoredFilenameKeepsPlainNames(name: string)
    requires '/' !in name
    requires forall k :: 0 <= k < |name| ==> !IsSpace(name[k])
    ensures StoredFilename(name) == name
  {
    var ext := ExtName(name);
    var stem := Basename(name, ext);
    assert stem + ext == name;
    assert forall k :: 0 <= k < |stem| ==> stem[k] == name[k];
    CollapseNoSpaces(stem);
  }

  /** The stored name keeps the original's extension. */
  lemma ExtensionPreserved(originalname: string)
    ensures ExtName(Segment(StoredFilename(originalname))) == ExtName(Segment(originalname))
  {
    var r := StoredFilename(originalname);
    assert Segment(r) == r;
    StoredExtension(originalname);
  }

  /** The stored name itself has the original's extension. */
  lemma StoredExtension(originalname: string)
    ensures ExtName(StoredFilename(originalname)) == ExtName(Segment(originalname))
  {
    var seg := Segment(originalname);
    var ext := ExtName(seg);
    var stem := Basename(originalname, ext);
    if ext == [] {
      assert stem == seg;
      NoExtensionAfterCollapse(seg);
    } else {
      assert stem + ext == seg;
      ExtensionAfterCollapse(stem, ext);
    }
  }

  /** Collapsing whitespace in a segment without an extension does not
      create one. */
  lemma NoExtensionAfterCollapse(seg: string)
    requires ExtName(seg) == []
    ensures ExtName(CollapseSpaces(seg)) == []
  {
    var c := CollapseSpaces(seg);
    CollapseKeepsText(seg);
    if '.' in c {
      assert '.' in seg;
      if seg == ".." {
        CollapseNoSpaces(seg);
      } else {
        assert LastIndexOf(seg, '.') == Some(0);
        assert seg[0] == '.';
        assert forall k :: 0 < k < |seg| ==> seg[k] != '.';
        assert '.' !in seg[1..];
        CollapseHead(seg);
        CollapseKeepsText(seg[1..]);
        assert '.' !in CollapseSpaces(seg[1..]);
        assert forall k :: 0 < k < |c| ==> c[k] == CollapseSpaces(seg[1..])[k - 1];
      }
    }
  }

  /** Collapsing whitespace in the stem keeps the extension that follows. */
  lemma ExtensionAfterCollapse(stem: string, ext: string)
    requires ext != [] && ExtName(stem + ext) == ext
    ensures ExtName(CollapseSpaces(stem) + ext) == ext
  {
    var c := CollapseSpaces(stem);
    assert stem != [];
    CollapseHead(stem);
    assert c == "." ==> stem == ".";
    assert stem == "." && ext == "." ==> stem + ext == "..";
    ExtensionAfterStem(c, ext);
  }

  /** A non-empty stem followed by a dotted extension, other than "..",
      has that extension. */
  lemma ExtensionAfterStem(c: string, ext: string)
    requires |c| > 0 && |ext| > 0 && ext[0] == '.'
    requires forall k :: 0 < k < |ext| ==> ext[k] != '.'
    requires !(c == "." && ext == ".")
    ensures ExtName(c + ext) == ext
  {
    var r := c + ext;
    assert r[|c|] == '.';
    assert forall k :: |c| < k < |r| ==> r[k] == ext[k - |c|];
    assert LastIndexOf(r, '.') == Some(|c|);
    assert r != ".." by {
      if |r| == 2 {
        assert |c| == 1 && |ext| == 1;
      }
    }
    assert r[|c|..] == ext;
  }

  /** Storing is idempotent. */
  lemma StoredFilenameIdempotent(originalname: string)
    ensures StoredFilename(StoredFilename(originalname)) == StoredFilename(originalname)
  {
    var ext := ExtName(Segment(originalname));
    var c := CollapseSpaces(Basename(originalname, ext));
    ExtensionPreserved(originalname);
    StoredAgain(c, ext);
  }

  /** A name made of a whitespace-free stem and its own extension, with
      no directory part, is stored as is. */
  lemma StoredAgain(c: string, ext: string)
    requires forall k :: 0 <= k < |c| ==> !IsSpace(c[k])
    requires '/' !in c + ext
    requires ExtName(Segment(c + ext)) == ext
    ensures StoredFilename(c + ext) == c + ext
  {
    var r := c + ext;
    assert Segment(r) == r;
    if ext != [] {
      assert r[|r| - |ext|..] == ext;
      assert Basename(r, ext) + ext == r;
      assert Basename(r, ext) == c;
    } else {
      assert r == c;
    }
    CollapseNoSpaces(c);
  }

  /** Directory components of the original name play no part. */
  lemma DirectoryDropped(dir: string, name: string)
    requires name != [] && '/' !in name
    ensures StoredFilename(dir + "/" + name) == StoredFilename(name)
  {
    SegmentAfterSlash(dir, name);
  }

  /** The last segment of a path ending in a slash-free name is that name. */
  lemma SegmentAfterSlash(dir: string, name: string)
    requires name != [] && '/' !in name
    ensures Segment(dir + "/" + name) == Segment(name)
  {
    var p := dir + "/" + name;
    assert p[|p| - 1] == name[|name| - 1];
    assert StripTrailingSlashes(p) == p;
    LastSlashBeforeName(dir, name);
    assert p[|dir| + 1..] == name;
  }

  /** The last slash of such a path is the one before the name. */
  lemma LastSlashBeforeName(dir: string, name: string)
    requires '/' !in name
    ensures LastIndexOf(dir + "/" + name, '/') == Some(|dir|)
  {
    var p := dir + "/" + name;
    assert p[|dir|] == '/';
    assert forall k :: |dir| < k < |p| ==> p[k] == name[k - |dir| - 1];
  }

  /** The name the app uploads, a user ID plus ".jpg", is stored
      unchanged when the ID has no whitespace and no slash. */
  lemma UserPhotoNameKept(userID: string)
    requires '/' !in userID
    requires forall k :: 0 <= k < |userID| ==> !IsSpace(userID[k])
    ensures StoredFilename(userID + ".jpg") == userID + ".jpg"
  {
    var name := userID + ".jpg";
    assert forall k :: |userID| <= k < |name| ==> name[k] == ".jpg"[k - |userID|];
    StoredFilenameKeepsPlainNames(name);
  }

  /** The route's answer. */
  datatype Response = Response(status: int, body: map<string, string>)

  /** `PUT /upload`: 400 when the request carried no file, otherwise the
      name the file was stored under. */
  function UploadResponse(originalname: Option<string>): (r: Response)
    ensures originalname.None? <==> r.status == 400
    ensures originalname.None? ==> r.body == map["error" := "No file uploaded"]
    ensures originalname.Some? ==> r.status == 200 && "filename" in r.body
    ensures originalname.Some? ==> r.body["filename"] == StoredFilename(originalname.value)
  {
    match originalname
    case None => Response(400, map["error" := "No file uploaded"])
    case Some(name) =>
      Response(200, map["message" := "File uploaded successfully", "filename" := StoredFilename(name)])
  }
}

=== FILE: user_model.dfy ===
/** The app's user record and its two enumerations. */
module UserModel {
  import opened Wrappers

  datatype UserRole = Manager | Individual

  /** Progress status a manager records for a client. The string raw value
      of each case is its own name. */
  datatype Status = Completed | Refused | Partial | Pending {

    function RawValue(): string
    {
      match this
      case Completed => "completed"
      case Refused => "refused"
      case Partial => "partial"
      case Pending => "pending"
    }
  }

  /** `Status.allCases`, in declaration order. */
  const AllStatuses: seq<Status> := [Completed, Refused, Partial, Pending]

  /** `Status(rawValue:)`: the inverse of `RawValue`. */
  function StatusFromRawValue(s: string): (r: Option<Status>)
    ensures forall st: Status :: r == Some(st) <==> st.RawValue() == s
  {
    if s == "completed" then Some(Completed)
    else if s == "refused" then Some(Refused)
    else if s == "partial" then Some(Partial)
    else if s == "pending" then Some(Pending)
    else None
  }

  /** `allCases` enumerates every status exactly once, and the raw values
      are the four distinct strings. */
  lemma AllStatusesEnumerate()
    ensures |AllStatuses| == 4
    ensures forall st: Status :: st in AllStatuses
    ensures forall i, j :: 0 <= i < j < |AllStatuses| ==> AllStatuses[i].RawValue() != AllStatuses[j].RawValue()
    ensures (set st | st in AllStatuses :: st.RawValue()) == {"completed", "refused", "partial", "pending"}
  {
    forall st: Status
      ensures st in AllStatuses
    {
      match st
      case Completed => assert AllStatuses[0] == st;
      case Refused => assert AllStatuses[1] == st;
      case Partial => assert AllStatuses[2] == st;
      case Pending => assert AllStatuses[3] == st;
    }
    var raws := set st | st in AllStatuses :: st.RawValue();
    assert Completed.RawValue() in raws && Refused.RawValue() in raws;
    assert Partial.RawValue() in raws && Pending.RawValue() in raws;
  }

  /** Whether `st` is ticked in a status dictionary; an absent key reads
      as not ticked. */
  function IsStatusSet(m: map<string, bool>, st: Status): (b: bool)
    ensures b <==> st.RawValue() in m && m[st.RawValue()]
  {
    st.RawValue() in m && m[st.RawValue()]
  }

  /** Record `value` for `st`: exactly the key `st.RawValue()` changes. */
  function SetStatus(m: map<string, bool>, st: Status, value: bool): (r: map<string, bool>)
    ensures r.Keys == m.Keys + {st.RawValue()}
    ensures r[st.RawValue()] == value
    ensures forall k :: k in m && k != st.RawValue() ==> r[k] == m[k]
  {
    m[st.RawValue() := value]
  }

  /** Reading a status back after setting it yields the value set, and
      the other statuses read as before. */
  lemma {:induction false} SetThenRead(m: map<string, bool>, st: Status, value: bool, other: Status)
    ensures IsStatusSet(SetStatus(m, st, value), st) == value
    ensures other != st ==> IsStatusSet(SetStatus(m, st, value), other) == IsStatusSet(m, other)
  {
    if other != st {
      assert other.RawValue() != st.RawValue() by { AllStatusesEnumerate(); }
    }
  }

  /** Setting a status to what it already reads leaves a map that holds
      the key unchanged; a second setting overrides the first. */
  lemma SetStatusIdempotent(m: map<string, bool>, st: Status, v: bool, w: bool)
    ensures st.RawValue() in m ==> SetStatus(m, st, IsStatusSet(m, st)) == m
    ensures SetStatus(SetStatus(m, st, v), st, w) == SetStatus(m, st, w)
  {
  }

  /** A 2-D point (`CGPoint`), one entry of a landmark face encoding. */
  datatype Point = Point(x: real, y: real)

  /** An opaque image handle (`UIImage`); pixels are never inspected. */
  datatype Image = Image(handle: nat)

  /** The user record. `id` is the per-instance UUID (its string form);
      `firestoreDocumentID` is the key of the record in the document store,
      empty when unknown. */
  datatype User = User(
    id: string,
    firestoreDocumentID: string,
    email: string,
    password: string,
    role: UserRole,
    firstName: string,
    lastName: string,
    unitNumber: Option<string>,
    buildingName: Option<string>,
    statusDictionary: map<string, bool>,
    faceImage: Option<Image>,
    faceEncoding: Option<seq<Point>>)

  /** The initialiser: every argument is stored unchanged, and the trailing
      ones default to an empty status map, no image and no encoding. The
      fresh UUID is passed in as `id`. */
  function NewUser(
    id: string, email: string, password: string, role: UserRole,
    firstName: string, lastName: string,
    unitNumber: Option<string>, buildingName: Option<string>,
    statusDictionary: map<string, bool> := map[],
    faceImage: Option<Image> := None,
    faceEncoding: Option<seq<Point>> := None,
    firestoreDocumentID: string := ""): (u: User)
    ensures u.id == id && u.email == email && u.password == password && u.role == role
    ensures u.firstName == firstName && u.lastName == lastName
    ensures u.unitNumber == unitNumber && u.buildingName == buildingName
    ensures u.statusDictionary == statusDictionary
    ensures u.faceImage == faceImage && u.faceEncoding == faceEncoding
    ensures u.firestoreDocumentID == firestoreDocumentID
  {
    User(id, firestoreDocumentID, email, password, role, firstName, lastName,
         unitNumber, buildingName, statusDictionary, faceImage, faceEncoding)
  }

  /** Leaving out the optional arguments yields an empty status map, no
      image, no encoding and no document ID. */
  lemma NewUserDefaults(id: string, email: string, password: string, role: UserRole,
                        firstName: string, lastName: string,
                        unitNumber: Option<string>, buildingName: Option<string>)
    ensures var u := NewUser(id, email, password, role, firstName, lastName, unitNumber, buildingName);
      u.statusDictionary == map[] && u.faceImage.None? && u.faceEncoding.None? && u.firestoreDocumentID == ""
  {
  }
}

=== FILE: utf8.dfy ===
/** Bytes and the UTF-8 encoding of strings (`String.data(using: .utf8)`). */
module Utf8 {

  newtype byte = b: int | 0 <= b < 256

  /** The UTF-8 encoding of one Unicode scalar value. */
  function EncodeChar(c: char): (r: seq<byte>)
    ensures 1 <= |r| <= 4
    ensures c as int < 0x80 <==> |r| == 1
    ensures c as int < 0x80 ==> r[0] as int == c as int
    ensures c as int >= 0x80 ==> forall i :: 0 <= i < |r| ==> r[i] >= 0x80
  {
    var n := c as int;
    if n < 0x80 then [n as byte]
    else if n < 0x800 then [(0xC0 + n / 64) as byte, (0x80 + n % 64) as byte]
    else if n < 0x10000 then
      [(0xE0 + n / 4096) as byte, (0x80 + (n / 64) % 64) as byte, (0x80 + n % 64) as byte]
    else
      [(0xF0 + n / 262144) as byte, (0x80 + (n / 4096) % 64) as byte,
       (0x80 + (n / 64) % 64) as byte, (0x80 + n % 64) as byte]
  }

  /** The UTF-8 encoding of a string. */
  function Encode(s: string): (r: seq<byte>)
    ensures |r| >= |s|
  {
    if s == [] then [] else EncodeChar(s[0]) + Encode(s[1..])
  }

  /** Encoding distributes over concatenation. */
  lemma {:induction false} EncodeAppend(a: string, b: string)
    ensures Encode(a + b) == Encode(a) + Encode(b)
  {
    if a == [] {
      assert a + b == b;
    } else {
      assert (a + b)[0] == a[0] && (a + b)[1..] == a[1..] + b;
      EncodeAppend(a[1..], b);
      calc {
        Encode(a + b);
        EncodeChar(a[0]) + Encode(a[1..] + b);
        EncodeChar(a[0]) + (Encode(a[1..]) + Encode(b));
        (EncodeChar(a[0]) + Encode(a[1..])) + Encode(b);
      }
    }
  }

  /** An ASCII character's byte occurs in an encoding only where the
      string holds that character: no byte of a multi-byte sequence is
      ASCII. */
  lemma {:induction false} AsciiByteOnlyFromChar(s: string, c: char)
    requires c as int < 0x80
    requires c !in s
    ensures (c as int) as byte !in Encode(s)
  {
    if s != [] {
      AsciiByteOnlyFromChar(s[1..], c);
      var b := (c as int) as byte;
      assert b !in EncodeChar(s[0]);
      assert Encode(s) == EncodeChar(s[0]) + Encode(s[1..]);
    }
  }

  /** An all-ASCII string encodes to its own character codes. */
  lemma {:induction false} EncodeAscii(s: string)
    requires forall i :: 0 <= i < |s| ==> s[i] as int < 0x80
    ensures |Encode(s)| == |s|
    ensures forall i :: 0 <= i < |s| ==> Encode(s)[i] as int == s[i] as int
  {
    if s != [] {
      EncodeAscii(s[1..]);
    }
  }
}

=== FILE: view_controller.dfy ===
/** The UIKit sign-in screen, which checks credentials against two
    built-in test accounts and routes by role. */
module SignIn {
  import opened Wrappers
  import opened UserModel
  import opened Text
  import opened Seqs

  /** The two built-in accounts; `uuid` supplies their generated ids. */
  function TestUsers(uuid: nat -> string): (users: seq<User>)
    ensures |users| == 2
    ensures users[0].email == "parker1123@outlook.com" && users[0].password == "admin123"
    ensures users[0].role == Manager
    ensures users[1].email == "user@gmail.com" && users[1].password == "user123"
    ensures users[1].role == Individual
  {
    [NewUser(uuid(0), "parker1123@outlook.com", "admin123", Manager, "Admin", "User", None, None),
     NewUser(uuid(1), "user@gmail.com", "user123", Individual, "User", "Person", None, None)]
  }

  const MissingFieldsMessage := "Please enter both username and password."
  const InvalidCredentialsMessage := "Invalid username or password."

  /** The screen presented after a successful sign-in. */
  datatype Screen = HomePage | PersonalDetail(user: User)

  /** What a tap on Sign In does: an alert, or a presented screen, and
      the resulting `isLoggedIn`. */
  datatype SignInResult = SignInResult(alert: Option<string>, presented: Option<Screen>, isLoggedIn: bool)

  /** Email compared case-insensitively, password exactly. */
  predicate Matches(u: User, username: string, password: string)
  {
    Lower(u.email) == Lower(username) && u.password == password
  }

  /** The screen a signed-in user is routed to. */
  function RouteFor(u: User): (s: Screen)
    ensures s == HomePage <==> u.role == Manager
    ensures u.role != Manager ==> s == PersonalDetail(u)
  {
    if u.role == Manager then HomePage else PersonalDetail(u)
  }

  /** Credential check against `users`: the first matching user signs in. */
  function AuthenticateUser(users: seq<User>, username: string, password: string,
                            isLoggedIn: bool): (r: SignInResult)
    ensures r.alert.None? <==> exists i :: 0 <= i < |users| && Matches(users[i], username, password)
    ensures r.alert.Some? ==>
      r == SignInResult(Some(InvalidCredentialsMessage), None, isLoggedIn)
    ensures r.alert.None? ==> r.isLoggedIn
    ensures r.alert.None? ==>
      exists i :: 0 <= i < |users| && Matches(users[i], username, password)
                  && (forall j :: 0 <= j < i ==> !Matches(users[j], username, password))
                  && r.presented == Some(RouteFor(users[i]))
  {
    match FirstIndex(users, u => Matches(u, username, password))
    case None => SignInResult(Some(InvalidCredentialsMessage), None, isLoggedIn)
    case Some(i) => SignInResult(None, Some(RouteFor(users[i])), true)
  }

  /** The Sign In action; a missing text field reads as empty. */
  function SignInTapped(users: seq<User>, usernameText: Option<string>, passwordText: Option<string>,
                        isLoggedIn: bool): (r: SignInResult)
    ensures usernameText.GetOr("") == "" || passwordText.GetOr("") == "" ==>
      r == SignInResult(Some(MissingFieldsMessage), None, isLoggedIn)
    ensures usernameText.GetOr("") != "" && passwordText.GetOr("") != "" ==>
      r == AuthenticateUser(users, usernameText.value, passwordText.value, isLoggedIn)
  {
    var email := usernameText.GetOr("");
    var password := passwordText.GetOr("");
    if email == [] || password == [] then SignInResult(Some(MissingFieldsMessage), None, isLoggedIn)
    else AuthenticateUser(users, email, password, isLoggedIn)
  }

  /** Case folding the typed email never changes the outcome. */
  lemma EmailCaseIgnored(users: seq<User>, username: string, password: string, isLoggedIn: bool)
    ensures AuthenticateUser(users, Lower(username), password, isLoggedIn)
         == AuthenticateUser(users, username, password, isLoggedIn)
  {
    LowerIdempotent(username);
    assert forall u :: Matches(u, Lower(username), password) <==> Matches(u, username, password);
    FirstIndexAgrees(users, u => Matches(u, Lower(username), password), u => Matches(u, username, password));
  }

  /** The manager test account signs in, in any letter case, and lands on
      the home page. */
  lemma ManagerTestAccountSignsIn(uuid: nat -> string, isLoggedIn: bool)
    ensures SignInTapped(TestUsers(uuid), Some("Parker1123@Outlook.COM"), Some("admin123"), isLoggedIn)
         == SignInResult(None, Some(HomePage), true)
  {
    var users := TestUsers(uuid);
    ManagerEmailFolds();
    assert Matches(users[0], "Parker1123@Outlook.COM", "admin123");
  }

  /** The mixed-case and the stored manager address fold alike. */
  lemma ManagerEmailFolds()
    ensures Lower("Parker1123@Outlook.COM") == "parker1123@outlook.com"
    ensures Lower("parker1123@outlook.com") == "parker1123@outlook.com"
  {
  }

  /** A wrong password for an existing account is rejected with an alert
      and leaves the session as it was. */
  lemma WrongPasswordRejected(uuid: nat -> string, isLoggedIn: bool)
    ensures SignInTapped(TestUsers(uuid), Some("user@gmail.com"), Some("User123"), isLoggedIn)
         == SignInResult(Some(InvalidCredentialsMessage), None, isLoggedIn)
  {
    var users := TestUsers(uuid);
    assert !Matches(users[0], "user@gmail.com", "User123");
    assert !Matches(users[1], "user@gmail.com", "User123");
  }
}

=== FILE: wrappers.dfy ===
/** Swift optionals (`T?`) as `Option<T>`, used across the model. */
module Wrappers {

  datatype Option<+T> = None | Some(value: T) {

    /** Swift's `x ?? default`. */
    function GetOr(default: T): (r: T)
      ensures Some? ==> r == value
      ensures None? ==> r == default
    {
      match this
      case Some(v) => v
      case None => default
    }
  }

  /** Dictionary subscript `m[k]`, which yields an optional. */
  function Get<K, V>(m: map<K, V>, k: K): (r: Option<V>)
    ensures r.Some? <==> k in m
    ensures r.Some? ==> r.value == m[k]
  {
    if k in m then Some(m[k]) else None
  }
}
